=== FILE: README.md ===
# Storefront model

A Dafny model of a small storefront: an Express/Sequelize server over six keyed
tables (register, login, customer, address, product, customer_order), and a
React/Redux client. Each request handler is a pure transition
`(store, request) -> (status, reply, store')`. Keys come from one auto-increment
counter. The foreign key from orders to products follows one of three policies:
none, restrict, or cascade, depending on which migration last ran.

On the client, every Redux reducer is a pure function. Each async thunk is
modelled as a classification of a fetch result, which is either a network
error or a status plus a parsed body. Browser storage is a string map.

## Layout

- **Shared definitions**
  - `common.dfy`: JSON scalars (`Value`), objects, truthiness, `String(n)` and `parseInt` digits, storage.
  - `records.dfy`:
    - the rows, the `Store` and its invariant (`Db`);
    - responses;
    - the query primitives `findOne`, `destroy({ where })` and `create`.
- **Server handlers**
  - `login.dfy`: authentication, login update and delete. Bcrypt is a `Hash` with a `Verifies` predicate; the JWT is a claims record.
  - `signup.dfy`: the signup chain.
  - `customers.dfy`, `orders.dfy`, `products.dfy`, `addresses.dfy`: the CRUD handlers.
  - `startup.dfy`: the stale-customer sweep the server runs at start-up.
  - `migrations.dfy`: the cascade migration and the admin seed.
  - `routes.dfy`: the route tables, their guards, and first-match dispatch.
- **Client**
  - `client.dfy`: fetch results, thunk outcomes and storage operations.
  - `order_slice.dfy`, `product_slice.dfy`, `session_slices.dfy`: the Redux slices (auth, notification, theme).
  - `app.dfy`: the client route table and the login page.
  - `components.dfy`: the form dialog and the data table.
  - `admin_page.dfy`: the admin page's sections, loading, requests and messages.
  - `shop_pages.dfy`: the quantity stepper, the dashboard's buy and cancel flows, and the product page.

## Model

| member | source | states |
|---|---|---|
| Records.FindOne | controllers/loginController.js:51 | `findOne` finds a matching row exactly when one exists, and the one it finds matches (the least key is chosen) |
| Records.DestroyWhere | controllers/customerController.js:53 | `destroy({ where })` removes exactly the matching rows and leaves the others unchanged |
| Records.DestroyUndoesInsert | server/index.js:41-43 | destroying by a condition that a freshly inserted row meets undoes the insertion |
| Common.PropText | client/src/pages/Admin.jsx:171-172 | a property renders as the text of its value, and as 'undefined' when it is missing |
| LoginController.Account | controllers/loginController.js:51-54 | the login looked up by username exists iff some login has that username |
| LoginController.RoleOf | controllers/loginController.js:59-60 | the role is the linked registration's role, or 'user' when the registration is missing |
| LoginController.Authenticate | controllers/loginController.js:45-70 | authentication never changes the store; 400 iff username or password is missing or empty; 401 with "Invalid username or password" for an unknown user or a wrong password; a stored password that is null gives 500 with bcrypt's 'data and hash arguments required', and a password or stored value that is not a string gives 500 with bcrypt's type message; 200 iff the password verifies, with claims {reg_id, username, role} expiring 3600 s after issue |
| LoginController.FailuresIndistinguishable | controllers/loginController.js:51-58 | an unknown username and a wrong password give the identical response, whenever the stored password is a string |
| LoginController.Update | controllers/loginController.js:17-30 | 404 for an unknown id; a truthy password that is not a string gives 500 with bcrypt's type message and no change; otherwise a truthy password is stored as a fresh hash, a falsy one as given, and reg_id and username are patched from the body; only that row changes |
| LoginController.Delete | controllers/loginController.js:33-42 | 404 for an unknown id; otherwise only that login row disappears |
| LoginController.UpdateThenAuthenticate | controllers/loginController.js:17-70 | when the updated username is truthy and carried by no other login, and the new password is a non-empty string, that password authenticates under that username afterwards, and the token carries the updated reg_id |
| LoginController.DeleteThenAuthenticate | controllers/loginController.js:33-58 | when no other login carries the deleted login's username, that username answers 401 with "Invalid username or password" afterwards |
| RegisterController.RoleOf | server/controllers/registerController.js:10 | the role is the body's role when truthy, else 'user' |
| RegisterController.Create | server/controllers/registerController.js:8-58 | an admin role gives 403 and no rows; a missing password gives 500 with bcrypt's 'data and salt arguments required' and a non-string one bcrypt's type message, with no rows; otherwise the register and login rows share one hash and never hold the plaintext; the login's reg_id is the register's id; a customer and an address are chained iff the role is 'user'; profile fields are stored only for 'user'; 201 with the register row |
| RegisterController.SignupThenAuthenticate | server/controllers/registerController.js:14-34 | when no existing login carries the username and the password is a non-empty string, a user who has just signed up authenticates with the same credentials, and the token carries the new register id and role 'user' |
| CustomerController.GetById | controllers/customerController.js:15-23 | 404 when absent, otherwise the row; the store is unchanged |
| CustomerController.Create | controllers/customerController.js:25-32 | exactly one customer is inserted under a fresh key, built from the body, and nothing else changes |
| CustomerController.Update | controllers/customerController.js:34-46 | 404 when absent; otherwise the customer is patched, and when its reg_id is set, the register with that id receives the same body |
| CustomerController.Delete | controllers/customerController.js:48-63 | 404 and no change when absent; otherwise exactly the customer's addresses and the customer disappear; with a reg_id, exactly its logins and its registration disappear too; orders and products are untouched |
| CustomerController.CreateThenGet | controllers/customerController.js:15-32 | a created customer is found under the key it was given |
| CustomerController.UpdateThenGet | controllers/customerController.js:15-46 | a lookup after an update sees the patched row, or 404 for an unknown id, and other customers read as before |
| CustomerController.DeleteLeavesNothingBehind | controllers/customerController.js:48-63 | after a delete the customer reads 404 and none of its addresses or logins remain |
| OrderController.CustomerOf | controllers/orderController.js:44 | the requester's customer exists iff some customer has the token's reg_id |
| OrderController.Create | controllers/orderController.js:41-58 | 404 with no order when the requester has no customer; otherwise the order's customer_id is the resolved customer, whatever the body says; product, date and total are copied unchecked; 201 with the new key |
| OrderController.Descending | controllers/orderController.js:23 | the keys of a set listed strictly descending, each exactly once |
| OrderController.Summary | controllers/orderController.js:22 | the joined product is present iff the order's product_id names a stored product, and carries exactly that product's name, category and price |
| OrderController.OrdersOf | controllers/orderController.js:20-21 | exactly the orders whose customer_id is the customer |
| OrderController.Views | controllers/orderController.js:20-25 | one listed order per key, in the given order, carrying the stored order and its product summary |
| OrderController.GetMyOrders | controllers/orderController.js:16-29 | 404 without a customer; otherwise every order of the requester and only those, each once, newest first, each with its product's name, category and price, or none when the product is missing |
| OrderController.PlacedOrderListedFirst | controllers/orderController.js:16-58 | a freshly placed order heads the requester's order list |
| OrderController.GetById | controllers/orderController.js:31-39 | 404 when absent, otherwise the row |
| OrderController.Update | controllers/orderController.js:60-69 | 404 when absent; otherwise only that order is patched |
| OrderController.UpdateThenGet | controllers/orderController.js:31-69 | a lookup after an accepted update sees the patched order; other orders, and every order after a refused update, read as before |
| OrderController.Delete | controllers/orderController.js:71-80 | 404 when absent; otherwise exactly that order disappears, whoever asks |
| OrderController.CreateThenDelete | controllers/orderController.js:41-80 | a placed order is found under its key, and deleting it restores the store apart from the counter |
| ProductController.WithImage | server/controllers/productController.js:24-27 | an upload sets image_url to '/images/products/' + filename; without one the body is unchanged |
| ProductController.GetById | server/controllers/productController.js:12-20 | 404 when absent, otherwise the row |
| ProductController.Create | server/controllers/productController.js:22-33 | exactly one product is inserted, with every field from the body, except that an upload sets image_url to the upload's public path |
| ProductController.Update | server/controllers/productController.js:35-48 | 404 when absent; otherwise image_url is overwritten only by an upload or the body, and name, price, quantity, category and description are each patched from the body |
| ProductController.UpdateThenGet | server/controllers/productController.js:12-48 | a lookup after an update sees the updated product, or 404 for an unknown id, and other products read as before |
| ProductController.Delete | server/controllers/productController.js:50-62 | 404 when absent; 409 with the product kept when the constraint restricts and orders refer to it; under a cascade, exactly the product's orders disappear; without a constraint, orders are untouched |
| ProductController.CreateThenDelete | server/controllers/productController.js:22-62 | a created product can be read back, and deleting it returns 200 and restores the store apart from the counter, under every policy |
| AddressController.GetById | server/controllers/addressController.js:12-20 | 404 when absent, otherwise the row |
| AddressController.Create | server/controllers/addressController.js:22-29 | exactly one address is added under a fresh key |
| AddressController.Update | server/controllers/addressController.js:31-40 | 404 when absent; otherwise only that address changes |
| AddressController.Delete | server/controllers/addressController.js:42-51 | 404 when absent; otherwise only that address disappears |
| AddressController.CreateThenDelete | server/controllers/addressController.js:22-51 | a created address is found, and deleting it restores the store apart from the counter |
| AddressController.UpdateThenGet | server/controllers/addressController.js:31-40 | a lookup after an update sees the patched row, and other rows are unchanged |
| StartupSweep.StaleIds | server/index.js:31-38 | a customer is stale iff first name, last name and email are each null or empty |
| StartupSweep.Sweep | server/index.js:31-45 | exactly the stale customers and every address of theirs disappear; everything else is unchanged; nothing happens when no customer is stale; the count reported is the number of stale customers |
| StartupSweep.SweepIdempotent | server/index.js:31-45 | a second sweep finds nothing to remove |
| Migrations.Reconstrain | migrations/20260227000001-cascade-delete-product-orders.js:6-14 | dropping and re-adding the constraint succeeds iff every order refers to a product; no row changes |
| Migrations.CascadeUp | migrations/20260227000001-cascade-delete-product-orders.js:4-15 | up installs the cascade policy, whether or not a constraint existed, when every order refers to a product |
| Migrations.CascadeDown | migrations/20260227000001-cascade-delete-product-orders.js:17-27 | down installs the restricting policy under the same condition |
| Migrations.CascadeUpThenDelete | migrations/20260227000001-cascade-delete-product-orders.js:10-14 | after up, deleting a product succeeds and leaves no order referring to it, while other orders stay |
| Migrations.CascadeDownThenDelete | migrations/20260227000001-cascade-delete-product-orders.js:22-26 | after down, deleting a product that has orders gives 409 and changes nothing |
| Migrations.MigrationsRerunnable | migrations/20260227000001-cascade-delete-product-orders.js:4-27 | re-running either direction has the same effect as running it once, and down after up is down |
| Migrations.AdminRegId | migrations/20260227000002-seed-permanent-admin.js:22-25 | the seed's lookup finds the greatest id among admin registrations, when there is one |
| Migrations.SeedAdminUp | migrations/20260227000002-seed-permanent-admin.js:5-33 | up adds one admin registration with null profile fields and one login with that reg_id; both share a hash of the seed password; no customer or address is added |
| Migrations.SeedAdminDown | migrations/20260227000002-seed-permanent-admin.js:35-38 | down removes exactly the logins named 'admin' and the registrations named and roled 'admin' |
| Migrations.SeedAdminDownUndoesUp | migrations/20260227000002-seed-permanent-admin.js:5-38 | down after up equals down alone, apart from the counter |
| Migrations.SeededAdminCanSignIn | migrations/20260227000002-seed-permanent-admin.js:5-33 | when no existing login is named 'admin', after seeding 'admin' with the seed password authenticates with role 'admin' and the new reg_id |
| Routes.Mount | server/index.js:15-21 | exactly the prefixes /api/customers, /api/products, /api/orders, /api/login and /api/addresses mount the matching router; any other prefix mounts none of the modelled routers |
| Routes.Table | routes/productRoutes.js:7-14 | the five routers' routes in registration order; no verb and path pattern is registered twice |
| Routes.Dispatch | server/routes/orderRoutes.js:5-11 | the route taken is the first registered route that serves the request, a literal segment matching in either letter case, and there is none iff no route serves it |
| Routes.Resolve | server/routes/orderRoutes.js:5-11 | the route resolved belongs to the resource's table and serves the request |
| Routes.MyOrdersBeforeLookup | server/routes/orderRoutes.js:6-7 | GET /my, in any letter case, reaches getMyOrders, and every segment that does not lower-case to 'my' reaches getById |
| Routes.AuthenticateInAnyCase | routes/loginRoutes.js:5 | POST /authenticate reaches the open sign-in handler in any letter case, and no other single segment reaches a POST route of the login router |
| Routes.PutIsPatch | routes/productRoutes.js:12-13 | wherever PUT /:id exists, PATCH /:id exists too, with the same update handler and guard |
| Routes.LoginsHaveNoCreate | routes/loginRoutes.js:5-8 | the login router has no create route and no PUT |
| Routes.RequiredGuard | routes/productRoutes.js:7-14 | only authentication is open; customer and login administration need admin; orders and addresses need auth; products need auth to read and admin to write |
| Routes.GuardsAsRequired | routes/customerRoutes.js:5-10 | every route that resolves carries the guard listed for it |
| Routes.OnlyAuthenticationIsOpen | routes/loginRoutes.js:5 | a resolved route is unguarded iff it is authentication |
| Client.FetchList | client/src/store/orderSlice.js:3-19 | the list thunks (`fetchMyOrders` here and `fetchProducts` at client/src/store/productSlice.js, lines 3-19, written alike): 401/403 rejects with 'unauthorized' before the body is read; a non-array body gives []; an array body is the payload |
| OrderSlice.PlaceOrder | client/src/store/orderSlice.js:21-43 | an ok reply fulfils with the parsed body; a failed reply rejects with the server's error or 'Failed to place order'; a failed reply whose body is JSON null throws when its error is read, as does a network error or a body that is not JSON |
| OrderSlice.CancelOrder | client/src/store/orderSlice.js:45-61 | it fulfils with the order id iff the reply is ok; a refusal rejects with 'Failed to cancel order' |
| OrderSlice.Pending | client/src/store/orderSlice.js:73-76 | loading is set, error is cleared, items are kept |
| OrderSlice.Fetched | client/src/store/orderSlice.js:77-84 | fulfilment replaces the items; rejection keeps them and sets the error or 'Failed to load orders'; loading ends |
| OrderSlice.Without | client/src/store/orderSlice.js:89 | no item with the id remains; every other item remains, as often as before and in order; nothing changes when no item matches |
| OrderSlice.Placed | client/src/store/orderSlice.js:85-87 | a placed order is appended and nothing else changes |
| OrderSlice.Cancelled | client/src/store/orderSlice.js:88-90 | a cancelled order's items are removed and nothing else changes; a list holding a null entry makes the filter throw, and the store is kept |
| OrderSlice.CancelIdempotent | client/src/store/orderSlice.js:88-90 | cancelling the same id twice is cancelling it once |
| OrderSlice.CancelUndoesPlace | client/src/store/orderSlice.js:85-90 | cancelling an order just placed gives the list as it was before, with that id removed |
| OrderSlice.MissingProfileListsNothing | client/src/store/orderSlice.js:13-17 | a 404 from /my shows an empty list with no error |
| ProductSlice.FetchProductById | client/src/store/productSlice.js:21-39 | 401/403 rejects with 'unauthorized', any other failure with 'Product not found'; an ok reply fulfils with the parsed body, null included |
| ProductSlice.ClearCurrent | client/src/store/productSlice.js:50-53 | the current product and the error are cleared; items and loading are kept |
| ProductSlice.Pending | client/src/store/productSlice.js:57-60 | loading is set, error is cleared, everything else is kept |
| ProductSlice.Listed | client/src/store/productSlice.js:61-68 | fulfilment replaces the items; rejection sets the error or 'Failed to load products' |
| ProductSlice.ListedAfterFetch | client/src/store/productSlice.js:3-19 | loading the catalogue: 401/403 sets 'unauthorized' and keeps the items; an error object such as a 404 or 500 body lists nothing with no error; an array lists its elements; a throw sets 'Failed to load products' |
| ProductSlice.Loaded | client/src/store/productSlice.js:73-80 | fulfilment sets the current product; rejection sets the error or 'Failed to load product' |
| ProductSlice.ClearForgetsLoad | client/src/store/productSlice.js:50-80 | clearing is idempotent and forgets whatever a load brought |
| AuthSlice.Load | client/src/store/authSlice.js:5-9 | the initial state reads the three storage keys |
| AuthSlice.SetCredentials | client/src/store/authSlice.js:11-19 | state takes token, username and role from the payload; storage mirrors their text, 'undefined' for a missing one; other keys are kept |
| AuthSlice.Logout | client/src/store/authSlice.js:20-27 | all three fields become null and exactly the three keys are removed |
| AuthSlice.ReloadKeepsCredentials | client/src/store/authSlice.js:5-19 | reloading after setCredentials restores the same state |
| AuthSlice.LogoutIdempotent | client/src/store/authSlice.js:20-27 | logging out twice is logging out once, and a reload stays logged out |
| NotificationSlice.Apply | client/src/store/notificationSlice.js:10-17 | notify sets the message, and the type defaults to 'success'; clear nulls both |
| NotificationSlice.Run | client/src/store/notificationSlice.js:9-18 | dispatching a sequence of actions applies the reducers one at a time, in order: nothing for none, and the last action on top of the rest |
| NotificationSlice.Show | client/src/store/notificationSlice.js:23-26 | a notify with the type defaulted to 'success', then a clear |
| NotificationSlice.ShowThenClear | client/src/store/notificationSlice.js:10-26 | the banner shows the message with the given type or 'success', and ends cleared |
| NotificationSlice.ClearIdempotent | client/src/store/notificationSlice.js:14-17 | clearing an already cleared banner changes nothing |
| ThemeSlice.Load | client/src/store/themeSlice.js:3 | dark mode unless storage holds exactly 'false' |
| ThemeSlice.Toggle | client/src/store/themeSlice.js:9-13 | the flag flips, the new value is persisted, and no other key changes |
| ThemeSlice.ToggleRoundTrip | client/src/store/themeSlice.js:3-13 | toggling twice restores the scheme, and a reload finds the scheme shown |
| App.Protected | client/src/App.jsx:7-10 | the page renders iff a token is stored, otherwise there is a redirect to /login |
| App.Route | client/src/App.jsx:14-20 | /login and /register are open; /dashboard and /admin are protected; anything else redirects to /login; paths are compared ignoring letter case and trailing slashes |
| App.RouteIgnoresCaseAndSlashes | client/src/App.jsx:14-20 | a location shows the same screen with a trailing slash added or its letters lower-cased |
| App.OnlyProtectedPagesNeedToken | client/src/App.jsx:7-19 | without a token, only the login and register pages can render |
| LoginPage.HandleLogin | client/src/pages/Login.jsx:10-50 | a failed request, a body that is not JSON and a JSON null body (whose fields cannot be read) all show 'Something went wrong' with storage untouched; a non-ok reply shows the server error with storage untouched; a success stores the session and navigates iff the role suits the button, and a refused role removes the three keys |
| LoginPage.RoleGate | client/src/pages/Login.jsx:30-46 | the admin button admits exactly the admin role and Sign In every other role, and the chosen page then renders |
| LoginPage.RefusalEndsSession | client/src/pages/Login.jsx:30-44 | after a refused role, the protected pages redirect to /login |
| Modal.Opening | client/src/components/Modal.jsx:8 | a field opens with the row's value when it is truthy, otherwise '' |
| Modal.InitialForm | client/src/components/Modal.jsx:7-8 | the form has exactly the fields' keys, each with its opening value |
| Modal.Clean | client/src/components/Modal.jsx:14-16 | exactly the entries other than '' are kept, unchanged |
| Modal.UneditedSubmit | client/src/components/Modal.jsx:7-16 | submitting an unedited form sends exactly the row's truthy fields, and nothing for a new row |
| DataTable.Shown | client/src/components/DataTable.jsx:26 | falsy values, 0 included, show as '' |
| DataTable.Cell | client/src/components/DataTable.jsx:26 | a masked cell always shows the mask |
| DataTable.Render | client/src/components/DataTable.jsx:2-26 | empty data shows only the message; otherwise the header is the labels plus 'Actions', with one row per record, in order |
| DataTable.MaskedColumnsLeakNothing | client/src/components/DataTable.jsx:26 | rows that differ only in masked columns render identically |
| AdminPage.RoleRedirect | client/src/pages/Admin.jsx:95-98 | the page stays iff the stored role is 'admin'; otherwise it redirects to /dashboard |
| AdminPage.LoadAll | client/src/pages/Admin.jsx:112-129 | a 401 or 403 in any section drops the token and signs out without loading; a thrown request empties the tables; when every reply is a parsed, authorised body of any status, every section gets its body as it came |
| AdminPage.Singular | client/src/pages/Admin.jsx:152 | the label without its last character |
| AdminPage.Save | client/src/pages/Admin.jsx:143-167 | add posts to the endpoint and edit patches endpoint/id; any reply is reported as success with the singular label; a thrown request shows 'Something went wrong' |
| AdminPage.Remove | client/src/pages/Admin.jsx:169-179 | nothing happens without confirmation; otherwise the request is a DELETE of endpoint/id, where a missing id reads 'undefined' |
| AdminPage.Logout | client/src/pages/Admin.jsx:181-185 | exactly the three session keys are removed, and the page goes to /login |
| AdminPage.LogoutEndsAdminSession | client/src/pages/Admin.jsx:181-185 | after logging out the page lands on the login screen, /admin redirects to /login, and the role check sends to /dashboard |
| AdminPage.SectionMessages | client/src/pages/Admin.jsx:6-86 | the singular labels are 'Admin Profile', 'Customer', 'Product' and 'Order' |
| AdminPage.RequestsReachHandlers | client/src/pages/Admin.jsx:143-179 | every section's edit and delete reach an update and a delete handler; an add button exists only where a create route exists |
| AdminPage.PasswordsNeverShown | client/src/pages/Admin.jsx:12-16 | the admin-profile table masks every password |
| AdminPage.LoginRoleOpensPage | client/src/pages/Admin.jsx:95-98 | after the admin button signs in, the stored role keeps the admin page open; after Sign In succeeds, the admin page redirects to /dashboard |
| AdminPage.LoadAllOutcomes | client/src/pages/Admin.jsx:112-129 | after a lost session the admin route redirects to /login; when every section lists its rows, each table gets its reply's body |
| AdminPage.RowRequestsReachHandlers | client/src/pages/Admin.jsx:154-179 | a row's delete and edit go to endpoint/id, which the server routes to that resource's delete and update handlers |
| Stepper.DigitRun | client/src/pages/Dashboard.jsx:509 | the length of the leading run of digits |
| Stepper.ParseInt | client/src/pages/Dashboard.jsx:509 | parseInt yields a number iff digits follow the optional sign |
| Stepper.ParseIntOfString | client/src/pages/Dashboard.jsx:509 | parsing a printed integer gives that integer back |
| Stepper.Dec | client/src/pages/Dashboard.jsx:499 | one less, but never below 1 |
| Stepper.Inc | client/src/pages/Dashboard.jsx:516 | one more, but never above the stock |
| Stepper.Typed | client/src/pages/Dashboard.jsx:509-511 | a NaN or 0 input counts as 1; a parsed number in [1, stock] is kept, one above the stock becomes the stock, and one below 1 becomes 1 (the stock when that is below 1) |
| Stepper.ToNumber | client/src/pages/Dashboard.jsx:56 | `Number` gives 0 for null, false and '', 1 for true, the number itself, and the value of a string made of an optional sign and decimal digits; no value for any other string |
| Stepper.NumberOfText | client/src/pages/Dashboard.jsx:56 | a price sent as an integer's text, with or without a plus sign, reads back as that integer |
| Stepper.StaysInStock | client/src/pages/ProductDetail.jsx:194-211 | with stock on hand, every control keeps the quantity in [1, stock], and typing an in-stock number selects exactly it |
| Stepper.Total | client/src/pages/Dashboard.jsx:56 | the total is the price's `Number` value times the quantity, whenever that value is an integer |
| Stepper.OrderBody | client/src/store/orderSlice.js:31-35 | the posted body holds exactly product_id, order_date and total_amount |
| Stepper.PlacedMessage | client/src/pages/Dashboard.jsx:59 | the success text is 'Order placed for ', then the quantity's decimal text, then 'x ' and the product's name |
| Dashboard.OpenBuy | client/src/pages/Dashboard.jsx:47-50 | the dialog opens for the product with quantity 1, and nothing else changes |
| Dashboard.OpenBuyInStock | client/src/pages/Dashboard.jsx:290-293 | the Buy button (disabled when quantity <= 0) is enabled exactly when the opening quantity 1 is within stock, and then decrement, increment and typing keep the quantity in [1, stock] |
| Dashboard.ConfirmBuy | client/src/pages/Dashboard.jsx:52-66 | success shows 'Order placed for ' + N + 'x ' + NAME (NAME 'undefined' when missing) and switches to the orders tab; failure shows the error or the default with type error; the dialog closes either way |
| Dashboard.ConfirmCancel | client/src/pages/Dashboard.jsx:72-81 | 'Order cancelled' or an error banner; the confirmation closes either way |
| Dashboard.CountLabel | client/src/pages/Dashboard.jsx:325 | 'order' iff the count is 1, otherwise 'orders' |
| Dashboard.AcceptedBuy | client/src/pages/Dashboard.jsx:52-66 | an accepted buy appends the order, opens the orders tab and shows a success banner |
| Dashboard.RecordedOrder | client/src/pages/Dashboard.jsx:54-57 | the server records the product, the date and price × quantity, under the requester |
| Dashboard.RefusedBuy | client/src/pages/Dashboard.jsx:52-66 | a refused buy keeps the list and shows the server's error |
| Dashboard.CancelThroughDialog | client/src/pages/Dashboard.jsx:72-81 | an accepted cancel removes exactly the order's entries from the list and shows 'Order cancelled'; a refused one keeps the list and shows 'Failed to cancel order'; the confirmation closes either way |
| ProductDetail.View | client/src/pages/ProductDetail.jsx:54-65 | while loading, 'Loading'; on an error, or a product that is missing, null, false, 0 or '', the error text or 'Product not found'; otherwise the product |
| ProductDetail.AfterLoad | client/src/pages/ProductDetail.jsx:26-32 | an 'unauthorized' result logs out and navigates to /login; anything else stays |
| ProductDetail.OpenBuy | client/src/pages/ProductDetail.jsx:150-151 | the dialog opens with quantity 1 |
| ProductDetail.OpenBuyInStock | client/src/pages/ProductDetail.jsx:149-151 | the Buy button (disabled when quantity <= 0) is enabled exactly when the opening quantity 1 is within stock, and then every stepper control keeps the quantity in [1, stock] |
| ProductDetail.ProductName | client/src/pages/ProductDetail.jsx:45 | the product's name as text, 'undefined' when it has none |
| ProductDetail.ConfirmBuy | client/src/pages/ProductDetail.jsx:38-52 | without a truthy product nothing happens; success closes the dialog, resets the quantity to 1 and names the product; failure only closes it and shows the error or the default |
| ProductDetail.MissingProduct | client/src/pages/ProductDetail.jsx:62-65 | a product the server does not find shows 'Product not found' |
| ProductDetail.LoadedProduct | client/src/pages/ProductDetail.jsx:54-65 | a loaded product is shown whatever an earlier load left behind, unless it is null, false, 0 or '', which shows 'Product not found' |
| ProductDetail.BuyThroughDialog | client/src/pages/ProductDetail.jsx:38-52 | an accepted buy joins the order list, closes the dialog and resets the quantity; a refused one keeps the list and the quantity and shows the server's error or the default |
| ProductDetail.LostSessionLogsOut | client/src/pages/ProductDetail.jsx:26-32 | a 401/403 while loading ends the session, so the protected pages redirect |

## Observed behaviour

The model makes these properties of the program explicit. They are
consequences of the code as written, not defects the model corrects:

- The admin page reports a save or a delete as successful for any reply status, and an error only when the request throws (`AdminPage.Save`, `AdminPage.Remove`).
- An edit through the form dialog can never clear a field, because empty entries are dropped (`Modal.UneditedSubmit`).
- A 404 from `/api/orders/my` shows an empty order list with no error (`OrderSlice.MissingProfileListsNothing`).
- Seed `down` deletes every login named 'admin', including ones that it did not seed.
- A role refused at login also wipes any session stored before (`LoginPage.RefusalEndsSession`).
- A customer update also applies its body to the linked registration. That body may carry `role`, or a plaintext `password`.
- Order delete has no ownership check. Order create has no product, stock or price check.
- Signup does not check that the username is unique, and authentication takes the first login with that name.

## Left out

- UpdateThenAuthenticate: signup does not enforce unique usernames and the login lookup takes the first match, so the lemma promises nothing when another login carries the same username.
- DeleteThenAuthenticate: another login with the same username still authenticates after the delete; the lemma assumes there is none.
- SignupThenAuthenticate: an earlier login with the same username would be found first, so the lemma assumes there is none.
- SeededAdminCanSignIn: an earlier login named 'admin' would be found first, so the lemma assumes there is none.
- The `getAll` handlers: each returns a whole table and has no property of its own.
- The auth and admin middleware are not part of this model. Routes record only which guard they use, not the statuses the guards return or token expiry checking.
- Bcrypt and JWT internals: a hash is a salt plus the secret, and `Verifies` compares secrets. The salt (bcrypt's randomness) and the signing time are parameters. The messages of the errors bcrypt throws are those of the bcrypt package for Node; the package itself is not part of this model.
- Column types are not enforced: every column holds any JSON scalar. A foreign key given as a numeric string is not matched against an integer key.
- A body that supplies a primary key is ignored; keys always come from the counter.
- Records.Store: one shared counter, `nextId`, issues the keys of all six tables, where the database keeps one auto-increment sequence per table. Key values therefore differ from the database's; the model relies only on each new key being fresh in its table.
- Records.FindOne: the database returns some matching row; the model fixes the least key, because row order is not specified.
- A 500 from a thrown database error is modelled only where the model's own data can cause it: bcrypt's refusals, and a dangling order product under a constraint.
- Registration routes, `Register.jsx` and the AI assistant controller are not part of this model.
- Routes.Mount: Express compares a mount prefix ignoring letter case and a trailing slash; the model compares the prefix exactly.
- Concurrency, and the missing transaction around the signup chain: every request is one atomic step.
- `undefined` and `null` are one value, `Null`, except where a missing property is turned into text (`Common.PropText`), which gives 'undefined' as the browser does.
- Stepper.ToNumber: strings JavaScript still reads as numbers, such as '12.00', '1e3', ' 5 ' and '0x10', are not evaluated and give no value, so a DECIMAL price sent as '12.00' gets no total; decimals need floating point, which is not modelled.
- Stepper.Total: for a price string other than '' or an optionally signed run of digits (a decimal such as '12.50', an exponent, hexadecimal, surrounding whitespace, 'Infinity'), `Number` gives a fraction, another number or NaN, and floating point is not modelled, so the model promises no total for such a price. `toLocaleString` formatting is not modelled either.
- Stepper.ParseInt: leading whitespace and radix prefixes are not modelled, since a number input never holds them.
- App.Route: percent-decoding of the location is not modelled, and letter case is folded for ASCII letters only.
- AdminPage.LoadAll: each section's parsed body is handed on as it came; the table is modelled for arrays of objects only (`DataTable.Render`), so what a body that is not an array does to the page is not modelled.
- Dashboard.ConfirmCancel: when the order list holds a null entry, the cancel reducer throws inside the dispatch, so the page's `await` throws and neither the banner nor the closing of the dialog happens. The model's store keeps its state (`OrderSlice.Cancelled`), but the page step does not follow the throw.
- `setTimeout`: the delay before a notification clears. `document` class toggling for the theme.
- Nested JSON objects in table cells and form values: values are scalars.
- The product page is not listed in the client route table; its behaviour is modelled as a page on its own.
- `console.log` and the Express, Sequelize and static-file wiring.

=== FILE: addresses.dfy ===
/**
 * The address controller: keyed lookup, create, update and delete, each
 * touching at most the one address it names.
 */
module AddressController {
  import opened Common
  import opened Records

  const AddressNotFound := "Address not found"

  function FromBody(body: Object): Address {
    Address(Get(body, "customer_id"), Get(body, "city"), Get(body, "postal_code"), Get(body, "street_address"))
  }

  function PatchAddress(a: Address, body: Object): Address {
    Address(Patch(body, "customer_id", a.customer_id), Patch(body, "city", a.city),
            Patch(body, "postal_code", a.postal_code), Patch(body, "street_address", a.street_address))
  }

  /** GET /api/addresses/:id. */
  function GetById(db: Db, id: int): (r: Step<Address>)
    ensures r.db == db
    ensures id !in db.addresses ==> r.res == Response(404, Failure(AddressNotFound))
    ensures id in db.addresses ==> r.res == Response(200, Json(db.addresses[id]))
  {
    if id !in db.addresses then Fail(404, AddressNotFound, db) else Ok(200, db.addresses[id], db)
  }

  /** POST /api/addresses: exactly one new address, under a fresh key. */
  function Create(db: Db, body: Object): (r: Step<Address>)
    ensures r.res == Response(201, Json(FromBody(body)))
    ensures Inserted(db.addresses, r.db.addresses, db.nextId, FromBody(body))
    ensures |r.db.addresses| == |db.addresses| + 1
    ensures r.db == db.(addresses := r.db.addresses, nextId := r.db.nextId)
  {
    Ok(201, FromBody(body), db.(addresses := db.addresses[db.nextId := FromBody(body)], nextId := db.nextId + 1))
  }

  /** PUT or PATCH /api/addresses/:id. */
  function Update(db: Db, id: int, body: Object): (r: Step<Address>)
    ensures id !in db.addresses ==> r == Fail(404, AddressNotFound, db)
    ensures id in db.addresses ==>
              && r.res == Response(200, Json(PatchAddress(db.addresses[id], body)))
              && r.db == db.(addresses := db.addresses[id := PatchAddress(db.addresses[id], body)])
  {
    if id !in db.addresses then Fail(404, AddressNotFound, db)
    else
      var a := PatchAddress(db.addresses[id], body);
      Ok(200, a, db.(addresses := db.addresses[id := a]))
  }

  /** DELETE /api/addresses/:id. */
  function Delete(db: Db, id: int): (r: Step<string>)
    ensures id !in db.addresses ==> r == Fail(404, AddressNotFound, db)
    ensures id in db.addresses ==>
              && r.res == Response(200, Json("Address deleted"))
              && r.db == db.(addresses := db.addresses - {id})
              && |r.db.addresses| == |db.addresses| - 1
  {
    if id !in db.addresses then Fail(404, AddressNotFound, db)
    else Ok(200, "Address deleted", db.(addresses := db.addresses - {id}))
  }

  /** A created address is found under the key it was given, and deleting it
      leaves the database as it was, bar the advanced counter. */
  lemma CreateThenDelete(db: Db, body: Object)
    ensures GetById(Create(db, body).db, db.nextId).res == Response(200, Json(FromBody(body)))
    ensures Delete(Create(db, body).db, db.nextId).db == db.(nextId := db.nextId + 1)
  {
  }

  /** A lookup after an update sees the patched row, and every other address
      reads as before. */
  lemma UpdateThenGet(db: Db, id: int, body: Object, other: int)
    requires id in db.addresses && other != id
    ensures GetById(Update(db, id, body).db, id).res == Response(200, Json(PatchAddress(db.addresses[id], body)))
    ensures GetById(Update(db, id, body).db, other).res == GetById(db, other).res
  {
  }
}

=== FILE: admin_page.dfy ===
/**
 * The admin page: four sections, each a table backed by one API resource,
 * with edit and delete on every row and add on products only.
 */
module AdminPage {
  import opened Common
  import opened Client
  import Modal
  import DataTable
  import Routes
  import App
  import LoginPage

  datatype Section = Section(
    key: string, caption: string, endpoint: string, idKey: string,
    columns: seq<DataTable.Column>, fields: seq<Modal.FieldSpec>, canAdd: bool)

  function Col(key: string, caption: string): DataTable.Column {
    DataTable.Column(key, caption, false)
  }

  function Field(key: string, caption: string, kind: string): Modal.FieldSpec {
    Modal.FieldSpec(key, caption, kind)
  }

  /** The sections, in display order. */
  const Sections: seq<Section> := [
    Section("admins", "Admin Profiles", "/api/login", "id",
            [Col("id", "ID"), Col("username", "Username"), DataTable.Column("password", "Password", true)],
            [Field("username", "Username", "text"), Field("password", "Password", "text")], false),
    Section("customers", "Customers", "/api/customers", "customer_id",
            [Col("customer_id", "ID"), Col("first_name", "First Name"), Col("last_name", "Last Name"),
             Col("email", "Email"), Col("phone", "Phone"), Col("age", "Age"), Col("birth_date", "Birth Date")],
            [Field("email", "Email", "email"), Field("first_name", "First Name", "text"),
             Field("last_name", "Last Name", "text"), Field("phone", "Phone", "text"),
             Field("age", "Age", "number"), Field("birth_date", "Birth Date", "date")], false),
    Section("products", "Products", "/api/products", "product_id",
            [Col("product_id", "ID"), Col("product_name", "Product Name"), Col("price", "Price"),
             Col("quantity", "Quantity"), Col("category", "Category"), Col("description", "Description")],
            [Field("product_name", "Product Name", "text"), Field("price", "Price", "number"),
             Field("quantity", "Quantity", "number"), Field("category", "Category", "text"),
             Field("description", "Description", "text")], true),
    Section("orders", "Orders", "/api/orders", "order_id",
            [Col("order_id", "Order ID"), Col("customer_id", "Customer ID"), Col("product_id", "Product ID"),
             Col("order_date", "Order Date"), Col("total_amount", "Total Amount")],
            [Field("customer_id", "Customer ID", "number"), Field("product_id", "Product ID", "number"),
             Field("order_date", "Order Date", "date"), Field("total_amount", "Total Amount", "number")], false)
  ]

  /** The page opens only for the administrator role; anyone else is sent to
      the dashboard. */
  function RoleRedirect(st: Storage): (to: Option<string>)
    ensures to.None? <==> "role" in st && st["role"] == "admin"
    ensures to.Some? ==> to.value == "/dashboard"
  {
    if GetItem(st, "role") == Some("admin") then None else Some("/dashboard")
  }

  /** The result of `loadAll`. */
  datatype Load =
    | SignedOut(storage: Storage)      // a 401 or 403 anywhere: the token is dropped, go to /login
    | Loaded(bodies: seq<Body>)        // one parsed body per section
    | Emptied                          // a request or a parse threw: every table is emptied

  /** `loadAll`, given the replies to the four section requests. */
  function LoadAll(st: Storage, replies: seq<Fetch>): (r: Load)
    requires |replies| == |Sections|
    ensures (exists i :: 0 <= i < |replies| && replies[i].NetworkError?) ==> r == Emptied
    ensures (forall i :: 0 <= i < |replies| ==> replies[i].Replied?) ==>
              (r.SignedOut? <==> exists i :: 0 <= i < |replies| && Unauthorized(replies[i]))
    ensures r.SignedOut? ==> r.storage == RemoveKeys(st, {"token"})
    ensures r.Loaded? ==>
              && |r.bodies| == |replies|
              && forall i :: 0 <= i < |replies| ==>
                   replies[i].Replied? && !replies[i].body.NotJson? && !Unauthorized(replies[i])
                   && r.bodies[i] == replies[i].body
    ensures (forall i :: 0 <= i < |replies| ==>
               replies[i].Replied? && !Unauthorized(replies[i]) && !replies[i].body.NotJson?) ==> r.Loaded?
  {
    if exists i :: 0 <= i < |replies| && replies[i].NetworkError? then Emptied
    else if exists i :: 0 <= i < |replies| && Unauthorized(replies[i]) then SignedOut(RemoveKeys(st, {"token"}))
    else if exists i :: 0 <= i < |replies| && replies[i].body.NotJson? then Emptied
    else Loaded(seq(|replies|, i requires 0 <= i < |replies| => replies[i].body))
  }

  datatype Verb = Post | Patch | Delete

  datatype Request = Request(verb: Verb, url: string, body: Object)

  /** `label.slice(0, -1)`. */
  function Singular(caption: string): (s: string)
    ensures caption != [] ==> s == caption[..|caption| - 1]
    ensures caption == [] ==> s == []
  {
    if caption == [] then [] else caption[..|caption| - 1]
  }

  /** The dialog's purpose: a new row, or an existing one. */
  datatype Purpose = Add | Edit(row: Object)

  /** `endpoint + '/' + row[idKey]`; a row without the key gives
      `.../undefined`. */
  function ItemUrl(section: Section, row: Object): string {
    section.endpoint + "/" + PropText(row, section.idKey)
  }

  /** The banner the page shows after a save or a delete. */
  datatype Notice = Notice(message: string, kind: string)

  /** `handleSave(form)`: the request it sends and the banner it shows. Only
      a request that throws shows an error; any reply, whatever its status,
      is reported as a success. */
  function Save(section: Section, purpose: Purpose, form: Object, f: Fetch): (r: (Request, Notice))
    ensures purpose.Add? ==> r.0 == Request(Post, section.endpoint, form)
    ensures purpose.Edit? ==> r.0 == Request(Patch, ItemUrl(section, purpose.row), form)
    ensures f.NetworkError? ==> r.1 == Notice("Something went wrong", "error")
    ensures f.Replied? ==>
              r.1 == Notice(Singular(section.caption) + (if purpose.Add? then " created successfully" else " updated successfully"),
                            "success")
  {
    var request :=
      match purpose
      case Add => Request(Post, section.endpoint, form)
      case Edit(row) => Request(Patch, ItemUrl(section, row), form);
    var done := if purpose.Add? then " created successfully" else " updated successfully";
    if f.NetworkError? then (request, Notice("Something went wrong", "error"))
    else (request, Notice(Singular(section.caption) + done, "success"))
  }

  /** `handleDelete(row)`: nothing unless the user confirms; then, as for a
      save, any reply counts as a success. */
  function Remove(section: Section, row: Object, confirmed: bool, f: Fetch): (r: Option<(Request, Notice)>)
    ensures r.Some? <==> confirmed
    ensures r.Some? ==> r.value.0 == Request(Delete, ItemUrl(section, row), map[])
    ensures r.Some? ==> r.value.1 == if f.NetworkError? then Notice("Failed to delete", "error")
                                     else Notice("Deleted successfully", "success")
  {
    if !confirmed then None
    else if f.NetworkError? then Some((Request(Delete, ItemUrl(section, row), map[]), Notice("Failed to delete", "error")))
    else Some((Request(Delete, ItemUrl(section, row), map[]), Notice("Deleted successfully", "success")))
  }

  /** `logout`: the session keys go, everything else in storage stays. */
  function Logout(st: Storage): (r: (Storage, string))
    ensures forall k :: k in r.0 <==> k in st && k !in SessionKeys
    ensures forall k :: k in r.0 ==> r.0[k] == st[k]
    ensures r.1 == "/login"
  {
    (RemoveKeys(st, SessionKeys), "/login")
  }

  /** After logging out, the admin page redirects to the login page, and a
      stored role no longer opens it. */
  lemma {:induction false} LogoutEndsAdminSession(st: Storage)
    ensures App.Route(Logout(st).1, Logout(st).0) == App.Render(App.LoginPage)
    ensures App.Route("/admin", Logout(st).0) == App.Redirect("/login")
    ensures RoleRedirect(Logout(st).0) == Some("/dashboard")
  {
    App.LoginPath();
    App.AdminPath();
    assert "token" !in Logout(st).0 && "role" !in Logout(st).0;
  }

  /** The resource each section's endpoint is mounted as. */
  function ResourceOf(section: Section): Option<Routes.Resource> {
    Routes.Mount(section.endpoint)
  }

  /** The singular captions the messages use. */
  lemma {:induction false} SectionMessages()
    ensures Singular(Sections[0].caption) == "Admin Profile"
    ensures Singular(Sections[1].caption) == "Customer"
    ensures Singular(Sections[2].caption) == "Product"
    ensures Singular(Sections[3].caption) == "Order"
  {
  }

  /** Every section's edit and delete reach the resource's update and delete
      handlers, and the one section with an add button reaches a create
      handler; the admin profiles, which have no create route, have no add
      button. */
  lemma {:induction false} RequestsReachHandlers(i: nat, id: string)
    requires i < |Sections| && id != ""
    ensures ResourceOf(Sections[i]).Some?
    ensures var res := ResourceOf(Sections[i]).value;
            && Routes.Resolve(res, Routes.Patch, [id]).Some?
            && Routes.Resolve(res, Routes.Patch, [id]).value.handler == Routes.Update
            && Routes.Resolve(res, Routes.Delete, [id]).Some?
            && Routes.Resolve(res, Routes.Delete, [id]).value.handler == Routes.Remove
            && (Sections[i].canAdd ==> Routes.Resolve(res, Routes.Post, []).Some? &&
                                       Routes.Resolve(res, Routes.Post, []).value.handler == Routes.Create)
            && (Routes.Resolve(res, Routes.Post, []).None? ==> !Sections[i].canAdd)
  {
    var t := Routes.Table(ResourceOf(Sections[i]).value);
    if i == 0 {
      assert Routes.Serves(t[2], Routes.Patch, [id]) && Routes.Serves(t[3], Routes.Delete, [id]);
    } else if i == 1 || i == 2 {
      assert Routes.Serves(t[2], Routes.Post, []);
      assert Routes.Serves(t[4], Routes.Patch, [id]) && Routes.Serves(t[5], Routes.Delete, [id]);
    } else {
      assert Routes.Serves(t[3], Routes.Post, []);
      assert Routes.Serves(t[5], Routes.Patch, [id]) && Routes.Serves(t[6], Routes.Delete, [id]);
    }
  }

  /** The admin profiles table never shows a password, whatever the rows
      hold. */
  lemma {:induction false} PasswordsNeverShown(rows: seq<Object>, i: nat)
    requires i < |rows|
    ensures var v := DataTable.Render(Sections[0].columns, rows, None);
            v.Table? && v.rows[i][2] == DataTable.Mask
  {
  }

  /** Signing in through the admin button opens the admin page, and signing
      in through the user form never does: the role the login page stores is
      the one this page checks. */
  lemma {:induction false} LoginRoleOpensPage(st: Storage, username: string, f: Fetch)
    ensures var r := LoginPage.HandleLogin(st, username, LoginPage.AdminLogin, f);
            r.navigate.Some? ==> RoleRedirect(r.storage).None?
    ensures var r := LoginPage.HandleLogin(st, username, LoginPage.SignIn, f);
            r.navigate.Some? ==> RoleRedirect(r.storage) == Some("/dashboard")
  {
    var r := LoginPage.HandleLogin(st, username, LoginPage.SignIn, f);
    if r.navigate.Some? {
      var role := Get(Fields(f.body), "role");
      assert role != Str("admin");
      assert PropText(Fields(f.body), "role") != "admin" by {
        if "role" in Fields(f.body) {
          if role.Num? {
            assert IsDigit(IntToString(role.n)[|IntToString(role.n)| - 1]);
          }
        }
      }
    }
  }

  /** A lost session while loading leaves the admin page for good: the
      token is gone, so the page's own route now redirects to the login
      page; replies that all list their rows are shown as they came. */
  lemma {:induction false} LoadAllOutcomes(st: Storage, replies: seq<Fetch>)
    requires |replies| == |Sections|
    ensures LoadAll(st, replies).SignedOut? ==> App.Route("/admin", LoadAll(st, replies).storage) == App.Redirect("/login")
    ensures (forall i :: 0 <= i < |replies| ==> replies[i].Replied? && IsOk(replies[i].status) && replies[i].body.JArray?) ==>
              && LoadAll(st, replies).Loaded?
              && forall i :: 0 <= i < |replies| ==> LoadAll(st, replies).bodies[i] == replies[i].body
  {
    App.AdminPath();
    assert "token" in {"token"};
  }

  /** A confirmed delete is sent to the row's address under its section's
      endpoint, which the server routes to that resource's delete handler;
      an edit is routed to the update handler. */
  lemma {:induction false} RowRequestsReachHandlers(i: nat, row: Object, form: Object, f: Fetch)
    requires i < |Sections| && PropText(row, Sections[i].idKey) != ""
    ensures var id := PropText(row, Sections[i].idKey);
            var r := Remove(Sections[i], row, true, f);
            && r.Some? && r.value.0.verb == Delete
            && r.value.0.url == Sections[i].endpoint + "/" + id
            && ResourceOf(Sections[i]).Some?
            && Routes.Resolve(ResourceOf(Sections[i]).value, Routes.Delete, [id]).Some?
            && Routes.Resolve(ResourceOf(Sections[i]).value, Routes.Delete, [id]).value.handler == Routes.Remove
    ensures var id := PropText(row, Sections[i].idKey);
            var r := Save(Sections[i], Edit(row), form, f);
            && r.0 == Request(Patch, Sections[i].endpoint + "/" + id, form)
            && ResourceOf(Sections[i]).Some?
            && Routes.Resolve(ResourceOf(Sections[i]).value, Routes.Patch, [id]).Some?
            && Routes.Resolve(ResourceOf(Sections[i]).value, Routes.Patch, [id]).value.handler == Routes.Update
  {
    RequestsReachHandlers(i, PropText(row, Sections[i].idKey));
  }
}

=== FILE: app.dfy ===
/**
 * The client's page routes and the login page's role gate.
 */
module App {
  import opened Common

  datatype Page = LoginPage | RegisterPage | DashboardPage | AdminPage

  /** What a location shows: a page, or a redirect elsewhere. */
  datatype Screen = Render(page: Page) | Redirect(to: string)

  /** Whether storage holds a session token; `getItem` gives a string, and
      only the empty string is falsy. */
  predicate HasToken(st: Storage) {
    "token" in st && st["token"] != ""
  }

  /** `ProtectedRoute`: the page when a token is stored, the login page
      otherwise. */
  function Protected(st: Storage, page: Page): (r: Screen)
    ensures r == Render(page) <==> HasToken(st)
    ensures !HasToken(st) ==> r == Redirect("/login")
  {
    if HasToken(st) then Render(page) else Redirect("/login")
  }

  /** The path without its trailing slashes. */
  function TrimSlashes(path: string): string {
    if path != [] && path[|path| - 1] == '/' then TrimSlashes(path[..|path| - 1]) else path
  }

  /** The form in which the router compares a location with a route's path:
      letters in either case match, and trailing slashes are ignored. */
  function Canonical(path: string): string {
    LowerAll(TrimSlashes(path))
  }

  /** The locations the client itself navigates to are already in the
      router's form. */
  lemma LoginPath() ensures Canonical("/login") == "/login" {}
  lemma RegisterPath() ensures Canonical("/register") == "/register" {}
  lemma DashboardPath() ensures Canonical("/dashboard") == "/dashboard" {}
  lemma AdminPath() ensures Canonical("/admin") == "/admin" {}

  /** The route table. */
  function Route(path: string, st: Storage): (r: Screen)
    ensures Canonical(path) == "/login" ==> r == Render(LoginPage)
    ensures Canonical(path) == "/register" ==> r == Render(RegisterPage)
    ensures Canonical(path) == "/dashboard" ==> r == Protected(st, DashboardPage)
    ensures Canonical(path) == "/admin" ==> r == Protected(st, AdminPage)
    ensures Canonical(path) !in {"/login", "/register", "/dashboard", "/admin"} ==> r == Redirect("/login")
  {
    var key := Canonical(path);
    if key == "/login" then Render(LoginPage)
    else if key == "/register" then Render(RegisterPage)
    else if key == "/dashboard" then Protected(st, DashboardPage)
    else if key == "/admin" then Protected(st, AdminPage)
    else Redirect("/login")
  }

  lemma {:induction false} TrimThenLower(path: string)
    ensures TrimSlashes(LowerAll(path)) == LowerAll(TrimSlashes(path))
    decreases |path|
  {
    LowerAllAt(path);
    if path != [] {
      var n := |path| - 1;
      LowerAllAt(path[..n]);
      if path[n] == '/' {
        assert LowerAll(path)[..n] == LowerAll(path[..n]);
        TrimThenLower(path[..n]);
      }
    }
  }

  /** Locations that differ in letter case or trailing slashes show the same
      screen. */
  lemma {:induction false} RouteIgnoresCaseAndSlashes(path: string, st: Storage)
    ensures Route(path + "/", st) == Route(path, st)
    ensures Route(LowerAll(path), st) == Route(path, st)
  {
    assert Canonical(path + "/") == Canonical(path) by {
      assert (path + "/")[..|path|] == path;
    }
    assert Canonical(LowerAll(path)) == Canonical(path) by {
      TrimThenLower(path);
      var t := TrimSlashes(path);
      LowerAllAt(t);
      LowerAllAt(LowerAll(t));
      assert LowerAll(LowerAll(t)) == LowerAll(t);
    }
  }

  /** The dashboard and the admin page are the only pages a missing token
      withholds, and every location without a token ends at a page that
      needs none. */
  lemma {:induction false} OnlyProtectedPagesNeedToken(path: string, st: Storage)
    ensures Route(path, st).Render? && Route(path, st).page in {DashboardPage, AdminPage} ==> HasToken(st)
    ensures !HasToken(st) ==> Route(path, st) in {Render(LoginPage), Render(RegisterPage), Redirect("/login")}
    ensures HasToken(st) && path in {"/dashboard", "/admin"} ==> Route(path, st).Render?
  {
    DashboardPath();
    AdminPath();
  }
}

/**
 * The login page: it authenticates, stores the session, then checks the
 * role against the button pressed.
 */
module LoginPage {
  import opened Common
  import opened Client
  import App

  const Failed := "Something went wrong. Please try again."
  const NotAdmin := "Access denied. You are not an admin."
  const AdminAsUser := "Admin accounts cannot log in as a regular user."

  /** The form's submit goes to the dashboard; the second button to the
      admin page. */
  const SignIn := "/dashboard"
  const AdminLogin := "/admin"

  /** What a login attempt leaves behind: the error shown, the storage, and
      where the page navigates, if anywhere. */
  datatype Outcome = Outcome(error: Value, storage: Storage, navigate: Option<string>)

  /** Whether the role in the reply is acceptable for the target page. */
  predicate Admitted(target: string, role: Value) {
    !(target == AdminLogin && role != Str("admin")) && !(target == SignIn && role == Str("admin"))
  }

  /** The attempt throws before it reads a field: the request fails, the
      reply is not JSON, or it is JSON `null`, whose `error` or `token`
      cannot be read. */
  predicate Throws(f: Fetch) {
    f.NetworkError? || f.body.NotJson? || NullBody(f.body)
  }

  /** `handleLogin(target)` given the reply to the authentication request. */
  function HandleLogin(st: Storage, username: string, target: string, f: Fetch): (r: Outcome)
    // whatever throws is caught: the generic message, and storage untouched
    ensures Throws(f) ==> r == Outcome(Str(Failed), st, None)
    // a refusal shows the server's error and leaves storage alone
    ensures !Throws(f) && !IsOk(f.status) ==> r == Outcome(Get(Fields(f.body), "error"), st, None)
    ensures r.navigate.Some? <==> !Throws(f) && IsOk(f.status) && Admitted(target, Get(Fields(f.body), "role"))
    ensures r.navigate.Some? ==>
              && r.navigate.value == target
              && r.storage == st["token" := PropText(Fields(f.body), "token")]
                                 ["username" := username]["role" := PropText(Fields(f.body), "role")]
    // a role refused after a good password removes every session key
    ensures !Throws(f) && IsOk(f.status) && !Admitted(target, Get(Fields(f.body), "role")) ==>
              && r.storage == RemoveKeys(st, SessionKeys)
              && r.error == Str(if target == AdminLogin then NotAdmin else AdminAsUser)
  {
    if Throws(f) then Outcome(Str(Failed), st, None)
    else
      var data := Fields(f.body);
      if !IsOk(f.status) then Outcome(Get(data, "error"), st, None)
      else
        var stored := SetItem(SetItem(SetItem(st, "token", PropText(data, "token")), "username", username),
                              "role", PropText(data, "role"));
        var role := Get(data, "role");
        if target == AdminLogin && role != Str("admin") then
          Outcome(Str(NotAdmin), RemoveKeys(stored, SessionKeys), None)
        else if target == SignIn && role == Str("admin") then
          Outcome(Str(AdminAsUser), RemoveKeys(stored, SessionKeys), None)
        else
          Outcome(Str(""), stored, Some(target))
  }

  /** The role gate: an administrator reaches only the admin page, anyone
      else only the dashboard, and a successful login with a non-empty token
      lets the protected page render. */
  lemma {:induction false} RoleGate(st: Storage, username: string, f: Fetch)
    requires !Throws(f) && IsOk(f.status)
    requires PropText(Fields(f.body), "token") != ""
    ensures var role := Get(Fields(f.body), "role");
            && (HandleLogin(st, username, AdminLogin, f).navigate.Some? <==> role == Str("admin"))
            && (HandleLogin(st, username, SignIn, f).navigate.Some? <==> role != Str("admin"))
    ensures var r := HandleLogin(st, username, AdminLogin, f);
            r.navigate.Some? ==> App.Route(AdminLogin, r.storage) == App.Render(App.AdminPage)
    ensures var r := HandleLogin(st, username, SignIn, f);
            r.navigate.Some? ==> App.Route(SignIn, r.storage) == App.Render(App.DashboardPage)
  {
    var admin := HandleLogin(st, username, AdminLogin, f);
    if admin.navigate.Some? {
      App.AdminPath();
      assert App.HasToken(admin.storage);
    }
    var user := HandleLogin(st, username, SignIn, f);
    if user.navigate.Some? {
      App.DashboardPath();
      assert App.HasToken(user.storage);
    }
  }

  /** A role refused at login also ends any session stored before: the
      protected pages redirect afterwards. */
  lemma {:induction false} RefusalEndsSession(st: Storage, username: string, target: string, f: Fetch)
    requires !Throws(f) && IsOk(f.status)
    requires target in {SignIn, AdminLogin} && !Admitted(target, Get(Fields(f.body), "role"))
    ensures App.Route(target, HandleLogin(st, username, target, f).storage) == App.Redirect("/login")
  {
    assert "token" in SessionKeys;
  }
}

=== FILE: client.dfy ===
/**
 * What the browser client sees of the API: a reply's status and parsed
 * JSON body, the outcome of an async thunk, and the key/value storage the
 * session lives in.
 */
module Client {
  import opened Common

  /** A JSON value inside a body: an object, a scalar (`null`, a boolean, a
      number or a string), or an array, whose contents no caller reads. */
  datatype Entry = Row(fields: Object) | Scalar(v: Value) | List

  /** JavaScript truthiness of a parsed value: objects and arrays are
      truthy, scalars as `Truthy` says. */
  predicate EntryTruthy(e: Entry) {
    !e.Scalar? || Truthy(e.v)
  }

  /** A response body after `res.json()`: not JSON at all (the call throws),
      an array, or a single value. */
  datatype Body = NotJson | JArray(elems: seq<Entry>) | JSingle(e: Entry)

  /** The outcome of `fetch`: the request failed, or a reply arrived. */
  datatype Fetch = NetworkError | Replied(status: int, body: Body)

  /** `res.ok`. */
  predicate IsOk(status: int) {
    200 <= status <= 299
  }

  /** A 401 or 403 reply, which every thunk treats as a lost session. */
  predicate Unauthorized(f: Fetch) {
    f.Replied? && (f.status == 401 || f.status == 403)
  }

  /** The body is JSON `null`: reading any property of it throws. */
  predicate NullBody(b: Body) {
    b == JSingle(Scalar(Null))
  }

  /** The properties of a parsed body read as an object; any other value
      that is not `null` has none, so each reads as `undefined`. */
  function Fields(b: Body): (o: Object)
    ensures b.JSingle? && b.e.Row? ==> o == b.e.fields
    ensures !(b.JSingle? && b.e.Row?) ==> o == map[]
  {
    if b.JSingle? && b.e.Row? then b.e.fields else map[]
  }

  /** A settled `createAsyncThunk`: fulfilled with a payload, or rejected
      with the value passed to `rejectWithValue` (`Null` when the thunk
      threw instead). */
  datatype Thunk<T> = Fulfilled(payload: T) | Rejected(reason: Value)

  /** `payload || fallback`. */
  function OrDefault(payload: Value, fallback: string): (v: Value)
    ensures Truthy(v) || fallback == ""
    ensures Truthy(payload) ==> v == payload
    ensures !Truthy(payload) ==> v == Str(fallback)
  {
    if Truthy(payload) then payload else Str(fallback)
  }

  /** The list thunks, `fetchMyOrders` and `fetchProducts`, which are written
      alike: a lost session is rejected as 'unauthorized' before the body is
      read; any other reply that is not an array lists nothing. */
  function FetchList(f: Fetch): (t: Thunk<seq<Entry>>)
    ensures Unauthorized(f) ==> t == Rejected(Str("unauthorized"))
    ensures f.NetworkError? || (!Unauthorized(f) && f.body.NotJson?) ==> t == Rejected(Null)
    ensures f.Replied? && !Unauthorized(f) && f.body.JArray? ==> t == Fulfilled(f.body.elems)
    ensures f.Replied? && !Unauthorized(f) && f.body.JSingle? ==> t == Fulfilled([])
  {
    match f
    case NetworkError => Rejected(Null)
    case Replied(status, body) =>
      if status == 401 || status == 403 then Rejected(Str("unauthorized"))
      else
        match body
        case NotJson => Rejected(Null)
        case JArray(elems) => Fulfilled(elems)
        case JSingle(_) => Fulfilled([])
  }

  /** `localStorage.getItem(k)`. */
  function GetItem(st: Storage, k: string): (r: Option<string>)
    ensures r.Some? <==> k in st
    ensures r.Some? ==> r.value == st[k]
  {
    if k in st then Some(st[k]) else None
  }

  /** `localStorage.setItem(k, v)`, given the text the value renders as. */
  function SetItem(st: Storage, k: string, text: string): (r: Storage)
    ensures k in r && r[k] == text
    ensures forall j :: j != k ==> (j in r <==> j in st) && (j in st ==> r[j] == st[j])
  {
    st[k := text]
  }

  /** `localStorage.removeItem` for each of `keys`. */
  function RemoveKeys(st: Storage, keys: set<string>): (r: Storage)
    ensures forall k :: k in r <==> k in st && k !in keys
    ensures forall k :: k in r ==> r[k] == st[k]
  {
    map k | k in st && k !in keys :: st[k]
  }

  /** `a` is `b` with some elements left out, the rest in their order. */
  predicate Subsequence<T(==)>(a: seq<T>, b: seq<T>)
    decreases |b|
  {
    a == [] || (b != [] && ((a[0] == b[0] && Subsequence(a[1..], b[1..])) || Subsequence(a, b[1..])))
  }
}

=== FILE: common.dfy ===
/**
 * Values shared by the server and the client models: JSON scalars with
 * JavaScript truthiness, JSON objects, an Option type, and the decimal
 * rendering of integers that JavaScript string concatenation performs.
 */
module Common {

  datatype Option<+T> = None | Some(value: T)

  /** A JSON scalar as it appears in a request body, a column, or a row the
      client receives. Prices and totals are idealised as integers. */
  datatype Value = Null | Bool(b: bool) | Num(n: int) | Str(s: string)

  /** A JSON object; a key that is absent is JavaScript's `undefined`. */
  type Object = map<string, Value>

  /** JavaScript truthiness: null, false, 0 and '' are falsy. */
  predicate Truthy(v: Value) {
    match v
    case Null => false
    case Bool(b) => b
    case Num(n) => n != 0
    case Str(s) => s != ""
  }

  /** `obj[k]` as stored by the ORM: an undefined attribute becomes NULL. */
  function Get(obj: Object, k: string): (v: Value)
    ensures k !in obj ==> v == Null
    ensures k in obj ==> v == obj[k]
  {
    if k in obj then obj[k] else Null
  }

  /** The value an ORM `update(body)` leaves in a column: the body's value
      when the body names the column, the current one otherwise. */
  function Patch(body: Object, k: string, current: Value): (v: Value)
    ensures k in body ==> v == body[k]
    ensures k !in body ==> v == current
  {
    if k in body then body[k] else current
  }

  /** `v || fallback` for a possibly undefined value. */
  function OrElse(v: Option<Value>, fallback: Value): (r: Value)
    ensures v.Some? && Truthy(v.value) ==> r == v.value
    ensures (v.None? || !Truthy(v.value)) ==> r == fallback
  {
    if v.Some? && Truthy(v.value) then v.value else fallback
  }

  predicate IsDigit(c: char) { '0' <= c <= '9' }

  function DigitChar(d: int): (c: char)
    requires 0 <= d < 10
    ensures IsDigit(c)
  {
    "0123456789"[d]
  }

  function DigitValue(c: char): (d: int)
    requires IsDigit(c)
    ensures 0 <= d < 10
  {
    c as int - '0' as int
  }

  /** Decimal digits of a natural number, most significant first. */
  function NatToString(n: nat): (s: string)
    ensures |s| >= 1
    ensures forall i :: 0 <= i < |s| ==> IsDigit(s[i])
  {
    if n < 10 then [DigitChar(n)] else NatToString(n / 10) + [DigitChar(n % 10)]
  }

  /** `String(n)` for an integer. */
  function IntToString(n: int): (s: string)
    ensures |s| >= 1
    ensures n >= 0 ==> s == NatToString(n)
    ensures n < 0 ==> s[0] == '-' && s[1..] == NatToString(-n)
  {
    if n < 0 then "-" + NatToString(-n) else NatToString(n)
  }

  /** Value of a run of decimal digits, most significant first. */
  function DigitsValue(s: string): (v: nat)
    requires forall i :: 0 <= i < |s| ==> IsDigit(s[i])
  {
    if s == [] then 0 else DigitsValue(s[..|s| - 1]) * 10 + DigitValue(s[|s| - 1])
  }

  /** Reading the digits of `n` back gives `n`. */
  lemma {:induction false} DigitsOfNat(n: nat)
    ensures DigitsValue(NatToString(n)) == n
  {
    var s := NatToString(n);
    if n < 10 {
      assert s == [DigitChar(n)];
      assert s[..0] == [];
    } else {
      DigitsOfNat(n / 10);
      assert s[..|s| - 1] == NatToString(n / 10);
      assert s[|s| - 1] == DigitChar(n % 10);
    }
  }

  /** How JavaScript renders a value inside string concatenation. */
  function ToText(v: Value): (s: string)
    ensures v.Str? ==> s == v.s
    ensures v == Null ==> s == "null"
    ensures v.Num? ==> s == IntToString(v.n)
  {
    match v
    case Null => "null"
    case Bool(b) => if b then "true" else "false"
    case Num(n) => IntToString(n)
    case Str(s) => s
  }

  /** How JavaScript renders `obj.k` inside string concatenation: a missing
      property reads as `undefined`. */
  function PropText(obj: Object, k: string): (s: string)
    ensures k in obj ==> s == ToText(obj[k])
    ensures k !in obj ==> s == "undefined"
  {
    if k in obj then ToText(obj[k]) else "undefined"
  }

  /** A browser key/value store such as localStorage. */
  type Storage = map<string, string>

  /** The three keys the client keeps its session under. */
  const SessionKeys: set<string> := {"token", "username", "role"}

  /** ASCII lower case. */
  function Lower(c: char): char {
    if 'A' <= c <= 'Z' then (c as int + 32) as char else c
  }

  function LowerAll(s: string): string {
    if s == [] then [] else [Lower(s[0])] + LowerAll(s[1..])
  }

  lemma {:induction false} LowerAllAt(s: string)
    ensures |LowerAll(s)| == |s|
    ensures forall i :: 0 <= i < |s| ==> LowerAll(s)[i] == Lower(s[i])
    decreases |s|
  {
    if s != [] {
      LowerAllAt(s[1..]);
    }
  }
}

=== FILE: components.dfy ===
/**
 * The admin form dialog: the form it opens with, and the request body it
 * submits, from which every empty entry is dropped.
 */
module Modal {
  import opened Common

  datatype FieldSpec = FieldSpec(key: string, caption: string, kind: string)

  /** The keys a list of fields names. */
  function Keys(fields: seq<FieldSpec>): (ks: set<string>)
    ensures forall k :: k in ks <==> exists i :: 0 <= i < |fields| && fields[i].key == k
  {
    if fields == [] then {}
    else
      var init := fields[..|fields| - 1];
      assert forall i :: 0 <= i < |init| ==> init[i] == fields[i];
      Keys(init) + {fields[|fields| - 1].key}
  }

  /** The value a field opens with: the row's value when truthy, else ''. */
  function Opening(data: Option<Object>, k: string): (v: Value)
    ensures data.Some? && Truthy(Get(data.value, k)) ==> v == data.value[k]
    ensures !(data.Some? && Truthy(Get(data.value, k))) ==> v == Str("")
  {
    if data.Some? && Truthy(Get(data.value, k)) then data.value[k] else Str("")
  }

  /** The initial form, built field by field in order. */
  function InitialForm(fields: seq<FieldSpec>, data: Option<Object>): (form: Object)
    ensures form.Keys == Keys(fields)
    ensures forall k :: k in form ==> form[k] == Opening(data, k)
  {
    if fields == [] then map[]
    else
      var last := fields[|fields| - 1];
      InitialForm(fields[..|fields| - 1], data)[last.key := Opening(data, last.key)]
  }

  /** `handleSubmit`: every entry except the empty string. */
  function Clean(form: Object): (cleaned: Object)
    ensures forall k :: k in cleaned <==> k in form && form[k] != Str("")
    ensures forall k :: k in cleaned ==> cleaned[k] == form[k]
  {
    map k | k in form && form[k] != Str("") :: form[k]
  }

  /** Submitting an unedited form sends exactly the fields the row had a
      truthy value for; an unedited form for a new row sends nothing. So an
      edit can never clear a field. */
  lemma {:induction false} UneditedSubmit(fields: seq<FieldSpec>, data: Option<Object>)
    ensures var sent := Clean(InitialForm(fields, data));
            && (forall k :: k in sent <==> k in Keys(fields) && data.Some? && Truthy(Get(data.value, k)))
            && (forall k :: k in sent ==> sent[k] == data.value[k])
    ensures data.None? ==> Clean(InitialForm(fields, data)) == map[]
  {
    var form := InitialForm(fields, data);
    var sent := Clean(form);
    forall k | k in form
      ensures k in sent <==> data.Some? && Truthy(Get(data.value, k))
    {
      assert form[k] == Opening(data, k);
    }
  }
}

/**
 * The admin tables: an empty-state message, or a header and one row of
 * cell texts per record.
 */
module DataTable {
  import opened Common

  datatype Column = Column(key: string, caption: string, mask: bool)

  datatype View = Empty(message: string) | Table(header: seq<string>, rows: seq<seq<string>>)

  const Mask := "••••••••"
  const DefaultEmpty := "No data found"

  /** The text React renders for `row[key] || ''`: nothing for a falsy value
      (0 included) and for `true`. */
  function Shown(v: Value): (s: string)
    ensures !Truthy(v) ==> s == ""
    ensures v.Str? ==> s == v.s
    ensures v.Num? && v.n != 0 ==> s == IntToString(v.n)
  {
    match v
    case Null => ""
    case Bool(_) => ""
    case Num(n) => if n == 0 then "" else IntToString(n)
    case Str(s) => s
  }

  /** A cell: masked columns hide the value whatever it is. */
  function Cell(row: Object, col: Column): (s: string)
    ensures col.mask ==> s == Mask
    ensures !col.mask ==> s == Shown(Get(row, col.key))
  {
    if col.mask then Mask else Shown(Get(row, col.key))
  }

  function Labels(columns: seq<Column>): (ls: seq<string>)
    ensures |ls| == |columns| && forall j :: 0 <= j < |columns| ==> ls[j] == columns[j].caption
  {
    if columns == [] then [] else [columns[0].caption] + Labels(columns[1..])
  }

  function Cells(row: Object, columns: seq<Column>): (cs: seq<string>)
    ensures |cs| == |columns| && forall j :: 0 <= j < |columns| ==> cs[j] == Cell(row, columns[j])
  {
    if columns == [] then [] else [Cell(row, columns[0])] + Cells(row, columns[1..])
  }

  function Rows(data: seq<Object>, columns: seq<Column>): (rs: seq<seq<string>>)
    ensures |rs| == |data| && forall i :: 0 <= i < |data| ==> rs[i] == Cells(data[i], columns)
  {
    if data == [] then [] else [Cells(data[0], columns)] + Rows(data[1..], columns)
  }

  /** The component. */
  function Render(columns: seq<Column>, data: seq<Object>, emptyMessage: Option<string>): (v: View)
    ensures v.Empty? <==> data == []
    ensures v.Empty? ==> v.message == if emptyMessage.Some? then emptyMessage.value else DefaultEmpty
    ensures v.Table? ==> v.header == Labels(columns) + ["Actions"] && v.rows == Rows(data, columns)
  {
    if data == [] then Empty(if emptyMessage.Some? then emptyMessage.value else DefaultEmpty)
    else Table(Labels(columns) + ["Actions"], Rows(data, columns))
  }

  /** Masked columns leak nothing: two tables whose rows differ only in
      masked columns render identically. */
  lemma {:induction false} MaskedColumnsLeakNothing(columns: seq<Column>, a: seq<Object>, b: seq<Object>, e: Option<string>)
    requires |a| == |b|
    requires forall i, j :: 0 <= i < |a| && 0 <= j < |columns| && !columns[j].mask ==>
               Get(a[i], columns[j].key) == Get(b[i], columns[j].key)
    ensures Render(columns, a, e) == Render(columns, b, e)
  {
    if a != [] {
      var ra := Rows(a, columns);
      var rb := Rows(b, columns);
      forall i | 0 <= i < |a| ensures ra[i] == rb[i] {
        var ca := Cells(a[i], columns);
        var cb := Cells(b[i], columns);
        assert forall j :: 0 <= j < |columns| ==> ca[j] == cb[j];
      }
    }
  }
}

=== FILE: customers.dfy ===
/**
 * The admin's customer controller: lookup, create, an update that mirrors
 * the body into the linked registration row, and a delete that cascades to
 * the customer's addresses, its logins and its registration.
 */
module CustomerController {
  import opened Common
  import opened Records

  const CustomerNotFound := "Customer not found"
  const CustomerDeleted := "Customer, register, login, and address deleted"

  /** `Customer.create(body)`. */
  function FromBody(body: Object): Customer {
    Customer(Get(body, "reg_id"), Get(body, "email"), Get(body, "first_name"),
             Get(body, "last_name"), Get(body, "phone"), Get(body, "age"), Get(body, "birth_date"))
  }

  /** `customer.update(body)`: every attribute the body names is replaced. */
  function PatchCustomer(c: Customer, body: Object): Customer {
    Customer(Patch(body, "reg_id", c.reg_id), Patch(body, "email", c.email),
             Patch(body, "first_name", c.first_name), Patch(body, "last_name", c.last_name),
             Patch(body, "phone", c.phone), Patch(body, "age", c.age),
             Patch(body, "birth_date", c.birth_date))
  }

  /** `Register.update(body)`: the same body applied to a registration row; a
      password in the body is written verbatim. */
  function PatchRegister(r: Register, body: Object): Register {
    Register(Patch(body, "username", r.username),
             if "password" in body then Plain(body["password"]) else r.password,
             Patch(body, "email", r.email), Patch(body, "first_name", r.first_name),
             Patch(body, "last_name", r.last_name), Patch(body, "phone", r.phone),
             Patch(body, "age", r.age), Patch(body, "birth_date", r.birth_date),
             Patch(body, "role", r.role))
  }

  /** GET /api/customers/:id. */
  function GetById(db: Db, id: int): (r: Step<Customer>)
    ensures r.db == db
    ensures id !in db.customers ==> r.res == Response(404, Failure(CustomerNotFound))
    ensures id in db.customers ==> r.res == Response(200, Json(db.customers[id]))
  {
    if id !in db.customers then Fail(404, CustomerNotFound, db)
    else Ok(200, db.customers[id], db)
  }

  /** POST /api/customers. */
  function Create(db: Db, body: Object): (r: Step<Customer>)
    ensures r.res.status == 201 && r.res.reply == Json(FromBody(body))
    ensures Inserted(db.customers, r.db.customers, db.nextId, FromBody(body))
    ensures r.db == db.(customers := r.db.customers, nextId := r.db.nextId)
  {
    Ok(201, FromBody(body), db.(customers := db.customers[db.nextId := FromBody(body)], nextId := db.nextId + 1))
  }

  /** PUT or PATCH /api/customers/:id. */
  function Update(db: Db, id: int, body: Object): (r: Step<Customer>)
    ensures id !in db.customers ==> r == Fail(404, CustomerNotFound, db)
    ensures id in db.customers ==>
              var c := PatchCustomer(db.customers[id], body);
              && r.res == Response(200, Json(c))
              && r.db.customers == db.customers[id := c]
              // the registration whose id is the updated reg_id receives the same body
              && (forall k :: k in r.db.registers <==> k in db.registers)
              && (forall k :: k in db.registers ==>
                    r.db.registers[k] ==
                      if Truthy(c.reg_id) && RefersTo(c.reg_id, k)
                      then PatchRegister(db.registers[k], body) else db.registers[k])
              && r.db == db.(customers := r.db.customers, registers := r.db.registers)
  {
    if id !in db.customers then
      Fail(404, CustomerNotFound, db)
    else
      var c := PatchCustomer(db.customers[id], body);
      var registers :=
        if Truthy(c.reg_id) && c.reg_id.Num? && c.reg_id.n in db.registers
        then db.registers[c.reg_id.n := PatchRegister(db.registers[c.reg_id.n], body)]
        else db.registers;
      Ok(200, c, db.(customers := db.customers[id := c], registers := registers))
  }

  /** DELETE /api/customers/:id. */
  function Delete(db: Db, id: int): (r: Step<string>)
    ensures id !in db.customers ==> r == Fail(404, CustomerNotFound, db)
    ensures id in db.customers ==>
              var regId := db.customers[id].reg_id;
              && r.res == Response(200, Json(CustomerDeleted))
              && r.db.customers == db.customers - {id}
              // exactly the addresses of this customer disappear
              && (forall k :: k in r.db.addresses <==> k in db.addresses && !RefersTo(db.addresses[k].customer_id, id))
              && (forall k :: k in r.db.addresses ==> r.db.addresses[k] == db.addresses[k])
              // with a reg_id, exactly its logins and its registration disappear
              && (Truthy(regId) ==>
                    && (forall k :: k in r.db.logins <==> k in db.logins && db.logins[k].reg_id != regId)
                    && (forall k :: k in r.db.registers <==> k in db.registers && !RefersTo(regId, k)))
              && (!Truthy(regId) ==> r.db.logins == db.logins && r.db.registers == db.registers)
              && (forall k :: k in r.db.logins ==> r.db.logins[k] == db.logins[k])
              && (forall k :: k in r.db.registers ==> r.db.registers[k] == db.registers[k])
              // orders and products are not touched
              && r.db.orders == db.orders && r.db.products == db.products
              && r.db.nextId == db.nextId && r.db.policy == db.policy
  {
    if id !in db.customers then
      Fail(404, CustomerNotFound, db)
    else
      var regId := db.customers[id].reg_id;
      var addresses := DestroyWhere(db.addresses, (a: Address) => RefersTo(a.customer_id, id));
      var customers := db.customers - {id};
      var logins := if Truthy(regId) then DestroyWhere(db.logins, (l: Login) => l.reg_id == regId) else db.logins;
      var registers := if Truthy(regId) && regId.Num? then db.registers - {regId.n} else db.registers;
      Ok(200, CustomerDeleted, db.(addresses := addresses, customers := customers,
                                   logins := logins, registers := registers))
  }

  /** A created customer is found under the key it was given. */
  lemma CreateThenGet(db: Db, body: Object)
    ensures GetById(Create(db, body).db, db.nextId).res == Response(200, Json(FromBody(body)))
  {
  }

  /** An update is what a later lookup of that customer finds, and no other
      customer changes. */
  lemma UpdateThenGet(db: Db, id: int, body: Object, other: int)
    requires other != id
    ensures GetById(Update(db, id, body).db, id).res ==
              (if id in db.customers then Update(db, id, body).res else Response(404, Failure(CustomerNotFound)))
    ensures GetById(Update(db, id, body).db, other).res == GetById(db, other).res
  {
  }

  /** After a customer is deleted, looking it up answers 404 and no address,
      login or registration that belonged to it remains. */
  lemma DeleteLeavesNothingBehind(db: Db, id: int)
    requires id in db.customers
    ensures
      var after := Delete(db, id).db;
      var regId := db.customers[id].reg_id;
      && GetById(after, id).res.status == 404
      && (forall k :: k in after.addresses ==> !RefersTo(after.addresses[k].customer_id, id))
      && (Truthy(regId) ==> forall k :: k in after.logins ==> after.logins[k].reg_id != regId)
      && (Truthy(regId) && regId.Num? ==> regId.n !in after.registers)
  {
  }
}

=== FILE: login.dfy ===
/**
 * The login controller: password authentication that issues a one-hour
 * session token, and the admin's update and delete of login rows.
 *
 * bcrypt and JWT are abstract: a digest is a `Hash`, comparison is
 * `Verifies`, and a token is the record of claims it would carry.
 */
module LoginController {
  import opened Common
  import opened Records

  /** The payload signed into a session token, with its issue and expiry
      times in seconds. */
  datatype Claims = Claims(reg_id: Value, username: Value, role: Value, iat: int, exp: int)

  /** `expiresIn: '1h'`. */
  const TokenLifetime: int := 3600

  /** The body of a successful authentication. */
  datatype Session = Session(message: string, token: Claims, role: Value)

  const MissingCredentials := "Username and password are required"
  const InvalidCredentials := "Invalid username or password"
  const LoginNotFound := "Login not found"

  /** The login row `findOne({ where: { username } })` returns. */
  function Account(db: Db, username: Value): (r: Option<int>)
    ensures r.None? <==> forall k :: k in db.logins ==> db.logins[k].username != username
    ensures r.Some? ==> r.value in db.logins && db.logins[r.value].username == username
  {
    FindOne(db.logins, (l: Login) => l.username == username)
  }

  /** The role a login's registration grants; 'user' when no registration row
      has the login's `reg_id`. */
  function RoleOf(db: Db, reg_id: Value): (role: Value)
    ensures reg_id.Num? && reg_id.n in db.registers ==> role == db.registers[reg_id.n].role
    ensures !(reg_id.Num? && reg_id.n in db.registers) ==> role == Str("user")
  {
    if reg_id.Num? && reg_id.n in db.registers then db.registers[reg_id.n].role else Str("user")
  }

  /** Whether `pw` matches a stored password column; a column that holds no
      digest never matches. */
  predicate Matches(pw: string, stored: Secret) {
    stored.Hashed? && Verifies(pw, stored.h)
  }

  /** POST /api/login/authenticate, signing at time `now`. */
  function Authenticate(db: Db, body: Object, now: int): (r: Step<Session>)
    ensures r.db == db
    ensures r.res.status == 400 <==> !Truthy(Get(body, "username")) || !Truthy(Get(body, "password"))
    ensures r.res.status == 401 ==> r.res.reply == Failure(InvalidCredentials)
    ensures (Truthy(Get(body, "username")) && Truthy(Get(body, "password"))
             && Account(db, body["username"]).None?) ==> r.res.status == 401
    ensures r.res.status == 200 <==>
              && Truthy(Get(body, "username")) && Truthy(Get(body, "password")) && body["password"].Str?
              && Account(db, body["username"]).Some?
              && Matches(body["password"].s, db.logins[Account(db, body["username"]).value].password)
    ensures r.res.status == 200 ==>
              var l := db.logins[Account(db, body["username"]).value];
              && r.res.reply.Json?
              && r.res.reply.body.token == Claims(l.reg_id, l.username, RoleOf(db, l.reg_id), now, now + TokenLifetime)
              && r.res.reply.body.role == RoleOf(db, l.reg_id)
    ensures r.res.status in {200, 400, 401, 500}
    // bcrypt's `compare` throws on a null digest, then on anything not a string
    ensures Truthy(Get(body, "username")) && Truthy(Get(body, "password")) && Account(db, body["username"]).Some? ==>
              var stored := db.logins[Account(db, body["username"]).value].password;
              && (stored == Plain(Null) ==> r == Fail(500, CompareMissing, db))
              && (stored != Plain(Null) && (!body["password"].Str? || !IsText(stored)) ==> r == Fail(500, CompareNotString, db))
              && (body["password"].Str? && IsText(stored) && !Matches(body["password"].s, stored) ==>
                    r == Fail(401, InvalidCredentials, db))
  {
    var username := Get(body, "username");
    var password := Get(body, "password");
    if !Truthy(username) || !Truthy(password) then
      Fail(400, MissingCredentials, db)
    else
      match Account(db, username)
      case None => Fail(401, InvalidCredentials, db)
      case Some(k) =>
        var stored := db.logins[k].password;
        if stored == Plain(Null) then
          Fail(500, CompareMissing, db)
        else if !password.Str? || !IsText(stored) then
          Fail(500, CompareNotString, db)
        else if !Matches(password.s, stored) then
          Fail(401, InvalidCredentials, db)
        else
          var login := db.logins[k];
          var role := RoleOf(db, login.reg_id);
          var claims := Claims(login.reg_id, login.username, role, now, now + TokenLifetime);
          Ok(200, Session("Login successful", claims, role), db)
  }

  /** The unknown-username and wrong-password failures answer with the same
      status and the same body, so a caller cannot tell them apart. */
  lemma FailuresIndistinguishable(unknown: Db, known: Db, body: Object, now: int)
    requires Truthy(Get(body, "username")) && Get(body, "password").Str? && body["password"].s != ""
    requires Account(unknown, body["username"]).None?
    requires Account(known, body["username"]).Some?
    requires IsText(known.logins[Account(known, body["username"]).value].password)
    requires !Matches(body["password"].s, known.logins[Account(known, body["username"]).value].password)
    ensures Authenticate(unknown, body, now).res == Authenticate(known, body, now).res
    ensures Authenticate(known, body, now).res == Response(401, Failure(InvalidCredentials))
  {
  }

  /** PATCH /api/login/:id; a truthy password is stored as a fresh digest
      with the given salt. */
  function Update(db: Db, id: int, body: Object, salt: nat): (r: Step<Login>)
    ensures id !in db.logins ==> r == Fail(404, LoginNotFound, db)
    ensures r.res.status == 200 ==>
              && id in db.logins && r.res.reply.Json?
              && r.db == db.(logins := db.logins[id := r.res.reply.body])
    ensures r.res.status == 200 ==>
              var old_ := db.logins[id];
              var l := r.res.reply.body;
              && l.reg_id == Patch(body, "reg_id", old_.reg_id)
              && l.username == Patch(body, "username", old_.username)
              && (Truthy(Get(body, "password")) && body["password"].Str? ==> l.password == Hashed(Bcrypt(salt, body["password"].s)))
              && ("password" in body && !Truthy(body["password"]) ==> l.password == Plain(body["password"]))
              && ("password" !in body ==> l.password == old_.password)
    ensures r.res.status != 200 ==> r.db == db
    ensures id in db.logins ==> (r.res.status == 200 <==> !Truthy(Get(body, "password")) || body["password"].Str?)
    ensures id in db.logins && r.res.status != 200 ==> r == Fail(500, HashNotString, db)
  {
    if id !in db.logins then
      Fail(404, LoginNotFound, db)
    else
      var login := db.logins[id];
      var password := Get(body, "password");
      if Truthy(password) && !password.Str? then
        Fail(500, HashNotString, db)
      else
        var stored :=
          if Truthy(password) then Hashed(Bcrypt(salt, password.s))
          else if "password" in body then Plain(password)
          else login.password;
        var updated := Login(Patch(body, "reg_id", login.reg_id), Patch(body, "username", login.username), stored);
        var db' := db.(logins := db.logins[id := updated]);
        assert Valid(db');
        Ok(200, updated, db')
  }

  /** DELETE /api/login/:id. */
  function Delete(db: Db, id: int): (r: Step<string>)
    ensures id !in db.logins ==> r == Fail(404, LoginNotFound, db)
    ensures id in db.logins ==>
              && r.res == Response(200, Json("Login deleted"))
              && r.db == db.(logins := db.logins - {id})
  {
    if id !in db.logins then
      Fail(404, LoginNotFound, db)
    else
      Ok(200, "Login deleted", db.(logins := db.logins - {id}))
  }

  /** A password changed through an update is the one that authenticates
      afterwards, under the updated username, provided no other login shares
      that username. */
  lemma {:induction false} UpdateThenAuthenticate(db: Db, id: int, body: Object, salt: nat, now: int)
    requires id in db.logins
    requires Get(body, "password").Str? && body["password"].s != ""
    requires Truthy(Patch(body, "username", db.logins[id].username))
    requires forall k :: k in db.logins && k != id ==> db.logins[k].username != Patch(body, "username", db.logins[id].username)
    ensures var after := Update(db, id, body, salt).db;
            var username := Patch(body, "username", db.logins[id].username);
            var r := Authenticate(after, map["username" := username, "password" := body["password"]], now);
            && r.res.status == 200
            && r.res.reply.body.token.reg_id == Patch(body, "reg_id", db.logins[id].reg_id)
  {
    var after := Update(db, id, body, salt).db;
    var username := Patch(body, "username", db.logins[id].username);
    assert Account(after, username) == Some(id) by {
      assert after.logins[id].username == username;
    }
  }

  /** Once a login is deleted, its username no longer authenticates, unless
      another login shares it. */
  lemma {:induction false} DeleteThenAuthenticate(db: Db, id: int, body: Object, now: int)
    requires id in db.logins
    requires Get(body, "username") == db.logins[id].username && Truthy(Get(body, "username"))
    requires Truthy(Get(body, "password"))
    requires forall k :: k in db.logins && k != id ==> db.logins[k].username != db.logins[id].username
    ensures Authenticate(Delete(db, id).db, body, now).res == Response(401, Failure(InvalidCredentials))
  {
    var after := Delete(db, id).db;
    assert Account(after, body["username"]).None?;
  }
}

=== FILE: migrations.dfy ===
/**
 * The two schema migrations. The first replaces the order table's foreign
 * key on `product_id` with a cascading one (and back); the second seeds the
 * permanent administrator account (and removes it).
 *
 * Each migration runs its statements one after the other, outside a
 * transaction: when the ADD CONSTRAINT finds an order whose product does not
 * exist, the migration fails, but the DROP before it has already taken effect.
 */
module Migrations {
  import opened Common
  import opened Records
  import ProductController
  import LoginController

  /** The store after a migration, and whether the migration completed. */
  datatype Outcome = Outcome(applied: bool, db: Db)

  /** DROP CONSTRAINT IF EXISTS, then ADD CONSTRAINT with the given policy;
      the ADD validates every existing order. */
  function Reconstrain(db: Db, policy: FkPolicy): (r: Outcome)
    requires policy != Unconstrained
    ensures r.applied <==> OrdersReferToProducts(db.orders, db.products)
    ensures r.applied ==> r.db.policy == policy
    ensures !r.applied ==> r.db.policy == Unconstrained
    // no row changes, whatever the outcome
    ensures r.db == db.(policy := r.db.policy)
  {
    var dropped := db.(policy := Unconstrained);
    if OrdersReferToProducts(dropped.orders, dropped.products) then Outcome(true, dropped.(policy := policy))
    else Outcome(false, dropped)
  }

  /** Up: deleting a product deletes its orders. */
  function CascadeUp(db: Db): (r: Outcome)
    ensures r.applied <==> OrdersReferToProducts(db.orders, db.products)
    ensures r.applied ==> r.db == db.(policy := Cascade)
    ensures !r.applied ==> r.db == db.(policy := Unconstrained)
  {
    Reconstrain(db, Cascade)
  }

  /** Down: a plain foreign key, so deleting a product with orders is refused. */
  function CascadeDown(db: Db): (r: Outcome)
    ensures r.applied <==> OrdersReferToProducts(db.orders, db.products)
    ensures r.applied ==> r.db == db.(policy := Restrict)
    ensures !r.applied ==> r.db == db.(policy := Unconstrained)
  {
    Reconstrain(db, Restrict)
  }

  /** After the up migration, deleting a product succeeds and leaves no order
      that refers to it. */
  lemma CascadeUpThenDelete(db: Db, id: int)
    requires id in db.products
    requires CascadeUp(db).applied
    ensures
      var r := ProductController.Delete(CascadeUp(db).db, id);
      && r.res.status == 200
      && id !in r.db.products
      && forall k :: k in r.db.orders ==> !RefersTo(r.db.orders[k].product_id, id)
  {
  }

  /** After the down migration, a product that still has orders cannot be
      deleted. */
  lemma CascadeDownThenDelete(db: Db, id: int, k: int)
    requires id in db.products && k in db.orders && RefersTo(db.orders[k].product_id, id)
    requires CascadeDown(db).applied
    ensures ProductController.Delete(CascadeDown(db).db, id) == Fail(409, ProductController.HasOrders, CascadeDown(db).db)
  {
    assert ProductController.OrderOf(db.orders[k], id);
  }

  /** The migrations can be re-run: the outcome of running one twice is the
      outcome of running it once, and up followed by down is down. */
  lemma {:induction false} MigrationsRerunnable(db: Db)
    ensures CascadeUp(CascadeUp(db).db) == CascadeUp(db)
    ensures CascadeDown(CascadeDown(db).db) == CascadeDown(db)
    ensures CascadeDown(CascadeUp(db).db) == CascadeDown(db)
  {
  }

  const AdminName := Str("admin")
  const AdminRole := Str("admin")
  /** The seeded administrator's password, in the clear. */
  const AdminPassword := "@admin2000"

  /** A registration row of the administrator account. */
  predicate IsAdminRegister(r: Register) {
    r.username == AdminName && r.role == AdminRole
  }

  /** A login row carrying the administrator's name. */
  predicate NamedAdmin(l: Login) {
    l.username == AdminName
  }

  /** The seeded registration: no profile, role `admin`. */
  function AdminRegister(h: Hash): Register {
    Register(AdminName, Hashed(h), Null, Null, Null, Null, Null, Null, AdminRole)
  }

  /** The id the seed reads back after inserting the registration: the
      greatest id among administrator registrations. */
  function AdminRegId(registers: map<int, Register>): (r: Option<int>)
    ensures r.None? <==> forall k :: k in registers ==> !IsAdminRegister(registers[k])
    ensures r.Some? ==> r.value in registers && IsAdminRegister(registers[r.value])
    ensures r.Some? ==> forall k :: k in registers && IsAdminRegister(registers[k]) ==> k <= r.value
  {
    var ids := Where(registers, IsAdminRegister);
    if ids == {} then None else Some(Greatest(ids))
  }

  /** Up: one administrator registration and one login sharing the same
      bcrypt hash; no customer profile and no address. */
  function SeedAdminUp(db: Db, salt: nat): (r: Db)
    ensures var h := Bcrypt(salt, AdminPassword);
            && Inserted(db.registers, r.registers, db.nextId, AdminRegister(h))
            && Inserted(db.logins, r.logins, db.nextId + 1, Login(Num(db.nextId), AdminName, Hashed(h)))
            && r.nextId == db.nextId + 2
            && r == db.(registers := r.registers, logins := r.logins, nextId := r.nextId)
  {
    var h := Bcrypt(salt, AdminPassword);
    var regId := db.nextId;
    var registers := db.registers[regId := AdminRegister(h)];
    var found := AdminRegId(registers);
    assert found == Some(regId) by {
      assert regId in registers && IsAdminRegister(registers[regId]);
      assert found.value <= regId;
    }
    db.(registers := registers,
        logins := db.logins[db.nextId + 1 := Login(Num(found.value), AdminName, Hashed(h))],
        nextId := db.nextId + 2)
  }

  /** Down: every login named `admin`, whatever its account, and every
      registration that is both named and roled `admin`. */
  function SeedAdminDown(db: Db): (r: Db)
    ensures forall k :: k in r.logins <==> k in db.logins && db.logins[k].username != AdminName
    ensures forall k :: k in r.registers <==> k in db.registers && !IsAdminRegister(db.registers[k])
    ensures forall k :: k in r.logins ==> r.logins[k] == db.logins[k]
    ensures forall k :: k in r.registers ==> r.registers[k] == db.registers[k]
    ensures r == db.(logins := r.logins, registers := r.registers)
  {
    db.(logins := DestroyWhere(db.logins, NamedAdmin),
        registers := DestroyWhere(db.registers, IsAdminRegister))
  }

  /** Seeding and then unseeding is the same as unseeding alone, apart from
      the spent ids. */
  lemma {:induction false} SeedAdminDownUndoesUp(db: Db, salt: nat)
    ensures SeedAdminDown(SeedAdminUp(db, salt)) == SeedAdminDown(db).(nextId := db.nextId + 2)
  {
    var h := Bcrypt(salt, AdminPassword);
    DestroyUndoesInsert(db.registers, db.nextId, AdminRegister(h), IsAdminRegister);
    DestroyUndoesInsert(db.logins, db.nextId + 1, Login(Num(db.nextId), AdminName, Hashed(h)), NamedAdmin);
  }

  /** After seeding, the administrator can sign in with the seeded password
      when no earlier login row carries the name `admin`. */
  lemma {:induction false} SeededAdminCanSignIn(db: Db, salt: nat, now: int)
    requires forall k :: k in db.logins ==> db.logins[k].username != AdminName
    ensures
      var r := LoginController.Authenticate(SeedAdminUp(db, salt),
                                            map["username" := AdminName, "password" := Str(AdminPassword)], now);
      && r.res.status == 200
      && r.res.reply.body.role == AdminRole
      && r.res.reply.body.token.reg_id == Num(db.nextId)
  {
    var up := SeedAdminUp(db, salt);
    var acct := LoginController.Account(up, AdminName);
    assert acct == Some(db.nextId + 1) by {
      assert db.nextId + 1 in up.logins && up.logins[db.nextId + 1].username == AdminName;
      forall k | k in up.logins && k != db.nextId + 1 ensures up.logins[k].username != AdminName {
        assert up.logins[k] == db.logins[k];
      }
    }
  }
}

=== FILE: order_slice.dfy ===
/**
 * The client's order store: the requester's orders, a loading flag and an
 * error. Three thunks talk to the API (list mine, place, cancel); their
 * settled results drive the reducers.
 */
module OrderSlice {
  import opened Common
  import opened Client

  datatype State = State(items: seq<Entry>, loading: bool, error: Value)

  const Initial := State([], false, Null)

  const LoadFailed := "Failed to load orders"
  const CancelFailed := "Failed to cancel order"
  const PlaceFailed := "Failed to place order"

  /** `placeOrder`: on a failed reply, the server's `error` or the default;
      a JSON `null` error body throws when its `error` is read. */
  function PlaceOrder(f: Fetch): (t: Thunk<Entry>)
    ensures f.Replied? && IsOk(f.status) && f.body.JSingle? ==> t == Fulfilled(f.body.e)
    ensures f.Replied? && IsOk(f.status) && f.body.JArray? ==> t == Fulfilled(List)
    ensures f.Replied? && !IsOk(f.status) && !f.body.NotJson? && !NullBody(f.body) ==>
              t == Rejected(OrDefault(Get(Fields(f.body), "error"), PlaceFailed))
    ensures f.NetworkError? || f.body.NotJson? || (!IsOk(f.status) && NullBody(f.body)) ==> t == Rejected(Null)
    ensures t.Rejected? && t.reason != Null ==> Truthy(t.reason)
  {
    match f
    case NetworkError => Rejected(Null)
    case Replied(status, body) =>
      if body.NotJson? then Rejected(Null)
      else if !IsOk(status) then
        if NullBody(body) then Rejected(Null) else Rejected(OrDefault(Get(Fields(body), "error"), PlaceFailed))
      else if body.JSingle? then Fulfilled(body.e)
      else Fulfilled(List)
  }

  /** `cancelOrder`: the body is never read; success carries the id back. */
  function CancelOrder(f: Fetch, orderId: Value): (t: Thunk<Value>)
    ensures f.NetworkError? ==> t == Rejected(Null)
    ensures f.Replied? ==> (t.Fulfilled? <==> IsOk(f.status))
    ensures f.Replied? && !IsOk(f.status) ==> t == Rejected(Str(CancelFailed))
    ensures t.Fulfilled? ==> t.payload == orderId
  {
    match f
    case NetworkError => Rejected(Null)
    case Replied(status, _) => if IsOk(status) then Fulfilled(orderId) else Rejected(Str(CancelFailed))
  }

  /** `fetchMyOrders.pending`. */
  function Pending(s: State): (r: State)
    ensures r.loading && r.error == Null && r.items == s.items
  {
    s.(loading := true, error := Null)
  }

  /** `fetchMyOrders.fulfilled` and `.rejected`. */
  function Fetched(s: State, t: Thunk<seq<Entry>>): (r: State)
    ensures !r.loading
    ensures t.Fulfilled? ==> r.items == t.payload && r.error == s.error
    ensures t.Rejected? ==> r.items == s.items && r.error == OrDefault(t.reason, LoadFailed)
  {
    match t
    case Fulfilled(items) => s.(loading := false, items := items)
    case Rejected(p) => s.(loading := false, error := OrDefault(p, LoadFailed))
  }

  /** An item that carries this `order_id`; other items, and items without
      the property, never match. */
  predicate HasId(e: Entry, id: Value) {
    e.Row? && "order_id" in e.fields && e.fields["order_id"] == id
  }

  /** `items.filter(o => o.order_id !== id)`. */
  function Without(items: seq<Entry>, id: Value): (r: seq<Entry>)
    ensures forall i :: 0 <= i < |r| ==> !HasId(r[i], id)
    ensures forall e :: e in items && !HasId(e, id) ==> e in r
    ensures forall e :: !HasId(e, id) ==> multiset(r)[e] == multiset(items)[e]
    ensures Subsequence(r, items)
    ensures (forall e :: e in items ==> !HasId(e, id)) ==> r == items
  {
    if items == [] then []
    else
      var rest := Without(items[1..], id);
      assert items == [items[0]] + items[1..];
      if HasId(items[0], id) then
        assert Subsequence(rest, items) by {
          if rest != [] {
            assert items[1..][1..] == items[2..];
          }
        }
        rest
      else
        [items[0]] + rest
  }

  /** `placeOrder.fulfilled` and `cancelOrder.fulfilled`; their rejections
      have no reducer. */
  function Placed(s: State, t: Thunk<Entry>): (r: State)
    ensures t.Fulfilled? ==> r.items == s.items + [t.payload]
    ensures r == s.(items := r.items)
    ensures t.Rejected? ==> r == s
  {
    if t.Fulfilled? then s.(items := s.items + [t.payload]) else s
  }

  /** The list holds a JSON `null`, which only a placed order answered
      with a `null` body puts there: the filter throws on reaching it. */
  predicate HoldsNull(items: seq<Entry>) {
    Scalar(Null) in items
  }

  /** A reducer that throws leaves the store as it was. */
  function Cancelled(s: State, t: Thunk<Value>): (r: State)
    ensures t.Fulfilled? && !HoldsNull(s.items) ==> r.items == Without(s.items, t.payload)
    ensures r == s.(items := r.items)
    ensures t.Rejected? || HoldsNull(s.items) ==> r == s
  {
    if t.Fulfilled? && !HoldsNull(s.items) then s.(items := Without(s.items, t.payload)) else s
  }

  /** Cancelling the same order twice is cancelling it once. */
  lemma {:induction false} CancelIdempotent(items: seq<Entry>, id: Value)
    ensures Without(Without(items, id), id) == Without(items, id)
  {
  }

  /** Cancelling an order just placed restores the list as it was, less any
      earlier copies of that order. */
  lemma {:induction false} CancelUndoesPlace(items: seq<Entry>, placed: Entry, id: Value)
    requires HasId(placed, id)
    ensures Without(items + [placed], id) == Without(items, id)
    decreases |items|
  {
    if items == [] {
      assert [] + [placed] == [placed];
    } else {
      assert (items + [placed])[1..] == items[1..] + [placed];
      CancelUndoesPlace(items[1..], placed, id);
    }
  }

  /** A customer without a profile is answered 404 with an error object; the
      list then shows no orders and no error. */
  lemma MissingProfileListsNothing(s: State, error: Object)
    ensures Fetched(Pending(s), FetchList(Replied(404, JSingle(Row(error))))) == s.(items := [], loading := false, error := Null)
  {
  }
}

=== FILE: orders.dfy ===
/**
 * The order controller. The requester is the decoded session token; the
 * customer is found through the token's `reg_id`, never through the body.
 * The handler checks neither the product, nor the stock, nor the total; the
 * only check on `product_id` is the database's foreign key, when one exists.
 */
module OrderController {
  import opened Common
  import opened Records
  import LoginController

  const ProfileNotFound := "Customer profile not found"
  const OrderNotFound := "Order not found"
  /** The database's refusal of a dangling `product_id`; the wording is the
      database's, not the application's. */
  const ForeignKeyViolation := "insert or update on table \"customer_order\" violates foreign key constraint"

  /** An order together with its primary key, as the API returns it. */
  datatype Keyed = Keyed(order_id: int, order: Order)

  /** The product columns joined into a listed order. */
  datatype ProductSummary = ProductSummary(product_name: Value, category: Value, price: Value)

  datatype OrderView = OrderView(order_id: int, order: Order, product: Option<ProductSummary>)

  /** The customer whose `reg_id` is the token's. */
  function CustomerOf(db: Db, user: LoginController.Claims): (r: Option<int>)
    ensures r.None? <==> forall k :: k in db.customers ==> db.customers[k].reg_id != user.reg_id
    ensures r.Some? ==> r.value in db.customers && db.customers[r.value].reg_id == user.reg_id
  {
    FindOne(db.customers, (c: Customer) => c.reg_id == user.reg_id)
  }

  /** Whether the order table accepts this `product_id` under the current
      foreign-key policy. */
  predicate Accepted(db: Db, product_id: Value) {
    db.policy == Unconstrained || ProductRef(db.products, product_id)
  }

  /** POST /api/orders. */
  function Create(db: Db, user: LoginController.Claims, body: Object): (r: Step<Keyed>)
    ensures CustomerOf(db, user).None? ==> r == Fail(404, ProfileNotFound, db)
    ensures r.res.status != 201 ==> r.db == db
    ensures r.res.status == 201 <==> CustomerOf(db, user).Some? && Accepted(db, Get(body, "product_id"))
    ensures r.res.status == 201 ==>
              && r.res.reply.Json?
              && var o := r.res.reply.body;
              && o.order_id == db.nextId
              && Inserted(db.orders, r.db.orders, o.order_id, o.order)
              // the owner comes from the token, never from the body
              && o.order.customer_id == Num(CustomerOf(db, user).value)
              // everything else is copied from the body unchecked
              && o.order.product_id == Get(body, "product_id")
              && o.order.order_date == Get(body, "order_date")
              && o.order.total_amount == Get(body, "total_amount")
              && r.db == db.(orders := r.db.orders, nextId := r.db.nextId)
  {
    match CustomerOf(db, user)
    case None => Fail(404, ProfileNotFound, db)
    case Some(cid) =>
      var o := Order(Num(cid), Get(body, "product_id"), Get(body, "order_date"), Get(body, "total_amount"));
      if !Accepted(db, o.product_id) then
        Fail(500, ForeignKeyViolation, db)
      else
        Ok(201, Keyed(db.nextId, o), db.(orders := db.orders[db.nextId := o], nextId := db.nextId + 1))
  }

  /** The keys of a set, greatest first. */
  function Descending(keys: set<int>): (s: seq<int>)
    ensures |s| == |keys|
    ensures forall i :: 0 <= i < |s| ==> s[i] in keys
    ensures forall k :: k in keys ==> k in s
    ensures forall i, j :: 0 <= i < j < |s| ==> s[i] > s[j]
    decreases |keys|
  {
    if keys == {} then []
    else
      var top := Greatest(keys);
      [top] + Descending(keys - {top})
  }

  /** The joined product of an order: present exactly when `product_id`
      names a stored product, and then carrying that product's name,
      category and price. */
  function Summary(db: Db, product_id: Value): (r: Option<ProductSummary>)
    ensures r.Some? <==> ProductRef(db.products, product_id) && product_id != Null
    ensures r.Some? ==>
              var p := db.products[product_id.n];
              r.value.product_name == p.product_name && r.value.category == p.category && r.value.price == p.price
  {
    if product_id.Num? && product_id.n in db.products then
      var p := db.products[product_id.n];
      Some(ProductSummary(p.product_name, p.category, p.price))
    else None
  }

  function View(db: Db, k: int): OrderView
    requires k in db.orders
  {
    OrderView(k, db.orders[k], Summary(db, db.orders[k].product_id))
  }

  /** The listed form of the orders with keys `ks`, in that order. */
  function Views(db: Db, ks: seq<int>): (vs: seq<OrderView>)
    requires forall i :: 0 <= i < |ks| ==> ks[i] in db.orders
    ensures |vs| == |ks|
    ensures forall i :: 0 <= i < |ks| ==> vs[i].order_id == ks[i] && vs[i].order == db.orders[ks[i]]
    ensures forall i :: 0 <= i < |ks| ==> vs[i].product == Summary(db, vs[i].order.product_id)
  {
    if ks == [] then [] else [View(db, ks[0])] + Views(db, ks[1..])
  }

  /** The keys of one customer's orders. */
  function OrdersOf(db: Db, cid: int): (ks: set<int>)
    ensures forall k :: k in ks <==> k in db.orders && RefersTo(db.orders[k].customer_id, cid)
  {
    Where(db.orders, (o: Order) => RefersTo(o.customer_id, cid))
  }

  /** `v` lists a stored order of customer `cid`, joined with its product. */
  predicate ListedFor(db: Db, v: OrderView, cid: int) {
    && v.order_id in db.orders
    && v.order == db.orders[v.order_id]
    && v.product == Summary(db, v.order.product_id)
    && RefersTo(v.order.customer_id, cid)
  }

  /** The listed orders of customer `cid`: every one of them, each once,
      newest (greatest key) first. */
  function Listing(db: Db, cid: int): (vs: seq<OrderView>)
    ensures |vs| == |OrdersOf(db, cid)|
    ensures forall i :: 0 <= i < |vs| ==> ListedFor(db, vs[i], cid)
    ensures forall k :: k in db.orders && RefersTo(db.orders[k].customer_id, cid) ==>
                          exists i :: 0 <= i < |vs| && vs[i].order_id == k
    ensures forall i, j :: 0 <= i < j < |vs| ==> vs[i].order_id > vs[j].order_id
  {
    var ks := Descending(OrdersOf(db, cid));
    var vs := Views(db, ks);
    forall k | k in db.orders && RefersTo(db.orders[k].customer_id, cid)
      ensures exists i :: 0 <= i < |vs| && vs[i].order_id == k
    {
      var i :| 0 <= i < |ks| && ks[i] == k;
      assert vs[i].order_id == k;
    }
    vs
  }

  /** GET /api/orders/my: the requester's orders, newest (greatest key)
      first, each with its product's name, category and price. */
  function GetMyOrders(db: Db, user: LoginController.Claims): (r: Step<seq<OrderView>>)
    ensures r.db == db
    ensures CustomerOf(db, user).None? ==> r.res == Response(404, Failure(ProfileNotFound))
    ensures CustomerOf(db, user).Some? ==>
              var cid := CustomerOf(db, user).value;
              && r.res.status == 200 && r.res.reply.Json?
              && var vs := r.res.reply.body;
              // only this customer's orders, and every one of them, each once
              && |vs| == |OrdersOf(db, cid)|
              && (forall i :: 0 <= i < |vs| ==> ListedFor(db, vs[i], cid))
              && (forall k :: k in db.orders && RefersTo(db.orders[k].customer_id, cid) ==>
                                exists i :: 0 <= i < |vs| && vs[i].order_id == k)
              // newest first
              && (forall i, j :: 0 <= i < j < |vs| ==> vs[i].order_id > vs[j].order_id)
  {
    match CustomerOf(db, user)
    case None => Fail(404, ProfileNotFound, db)
    case Some(cid) => Ok(200, Listing(db, cid), db)
  }

  /** A freshly placed order heads the customer's list. */
  lemma {:induction false} PlacedOrderListedFirst(db: Db, user: LoginController.Claims, body: Object)
    requires Create(db, user, body).res.status == 201
    ensures
      var after := Create(db, user, body).db;
      var list := GetMyOrders(after, user).res.reply;
      && list.Json? && |list.body| >= 1
      && list.body[0].order_id == db.nextId
      && list.body[0].order.customer_id == Num(CustomerOf(db, user).value)
  {
    var after := Create(db, user, body).db;
    var cid := CustomerOf(db, user).value;
    assert CustomerOf(after, user) == CustomerOf(db, user) by {
      assert after.customers == db.customers;
    }
    var vs := GetMyOrders(after, user).res.reply.body;
    var newest := db.nextId;
    assert newest in after.orders && RefersTo(after.orders[newest].customer_id, cid);
    var i :| 0 <= i < |vs| && vs[i].order_id == newest;
    if i != 0 {
      assert false;
    }
  }

  /** GET /api/orders/:id. */
  function GetById(db: Db, id: int): (r: Step<Order>)
    ensures r.db == db
    ensures id !in db.orders ==> r.res == Response(404, Failure(OrderNotFound))
    ensures id in db.orders ==> r.res == Response(200, Json(db.orders[id]))
  {
    if id !in db.orders then Fail(404, OrderNotFound, db) else Ok(200, db.orders[id], db)
  }

  /** `order.update(body)`. */
  function PatchOrder(o: Order, body: Object): Order {
    Order(Patch(body, "customer_id", o.customer_id), Patch(body, "product_id", o.product_id),
          Patch(body, "order_date", o.order_date), Patch(body, "total_amount", o.total_amount))
  }

  /** PUT or PATCH /api/orders/:id. */
  function Update(db: Db, id: int, body: Object): (r: Step<Order>)
    ensures id !in db.orders ==> r == Fail(404, OrderNotFound, db)
    ensures r.res.status != 200 ==> r.db == db
    ensures id in db.orders ==>
              (r.res.status == 200 <==> Accepted(db, PatchOrder(db.orders[id], body).product_id))
    ensures r.res.status == 200 ==>
              && id in db.orders
              && r.res.reply == Json(PatchOrder(db.orders[id], body))
              && r.db == db.(orders := db.orders[id := PatchOrder(db.orders[id], body)])
  {
    if id !in db.orders then
      Fail(404, OrderNotFound, db)
    else
      var o := PatchOrder(db.orders[id], body);
      if !Accepted(db, o.product_id) then Fail(500, ForeignKeyViolation, db)
      else Ok(200, o, db.(orders := db.orders[id := o]))
  }

  /** An accepted update is what a later lookup of that order finds, and no
      other order changes; a refused one changes nothing. */
  lemma {:induction false} UpdateThenGet(db: Db, id: int, body: Object, other: int)
    ensures var r := Update(db, id, body);
            r.res.status == 200 ==> GetById(r.db, id).res == Response(200, r.res.reply)
    ensures var r := Update(db, id, body);
            other != id || r.res.status != 200 ==> GetById(r.db, other).res == GetById(db, other).res
  {
  }

  /** DELETE /api/orders/:id: any authenticated caller may delete any order;
      the requester is not consulted. */
  function Delete(db: Db, id: int): (r: Step<string>)
    ensures id !in db.orders ==> r == Fail(404, OrderNotFound, db)
    ensures id in db.orders ==>
              r.res == Response(200, Json("Order deleted")) && r.db == db.(orders := db.orders - {id})
  {
    if id !in db.orders then Fail(404, OrderNotFound, db)
    else Ok(200, "Order deleted", db.(orders := db.orders - {id}))
  }

  /** Deleting a freshly placed order undoes the placement, bar the advanced
      counter; the lookup in between finds the placed order. */
  lemma CreateThenDelete(db: Db, user: LoginController.Claims, body: Object)
    requires Create(db, user, body).res.status == 201
    ensures GetById(Create(db, user, body).db, db.nextId).res ==
              Response(200, Json(Create(db, user, body).res.reply.body.order))
    ensures Delete(Create(db, user, body).db, db.nextId).db == db.(nextId := db.nextId + 1)
  {
  }
}

=== FILE: product_slice.dfy ===
/**
 * The client's product store: the catalogue, the product on the detail
 * page, a loading flag and an error, driven by two thunks.
 */
module ProductSlice {
  import opened Common
  import opened Client

  datatype State = State(items: seq<Entry>, current: Option<Entry>, loading: bool, error: Value)

  const Initial := State([], None, false, Null)

  const NotFound := "Product not found"
  const ListFailed := "Failed to load products"
  const LoadFailed := "Failed to load product"

  /** `fetchProductById`: a lost session is 'unauthorized', any other
      failed reply 'Product not found', whatever its body. */
  function FetchProductById(f: Fetch): (t: Thunk<Entry>)
    ensures Unauthorized(f) ==> t == Rejected(Str("unauthorized"))
    ensures f.Replied? && !Unauthorized(f) && !IsOk(f.status) ==> t == Rejected(Str(NotFound))
    ensures f.Replied? && IsOk(f.status) && f.body.JSingle? ==> t == Fulfilled(f.body.e)
    ensures f.Replied? && IsOk(f.status) && f.body.JArray? ==> t == Fulfilled(List)
    ensures f.NetworkError? || (IsOk(f.status) && f.body.NotJson?) ==> t == Rejected(Null)
  {
    match f
    case NetworkError => Rejected(Null)
    case Replied(status, body) =>
      if status == 401 || status == 403 then Rejected(Str("unauthorized"))
      else if !IsOk(status) then Rejected(Str(NotFound))
      else
        match body
        case NotJson => Rejected(Null)
        case JArray(_) => Fulfilled(List)
        case JSingle(e) => Fulfilled(e)
  }

  /** `clearCurrentProduct`. */
  function ClearCurrent(s: State): (r: State)
    ensures r.current.None? && r.error == Null
    ensures r.items == s.items && r.loading == s.loading
  {
    s.(current := None, error := Null)
  }

  /** The `pending` case of both thunks. */
  function Pending(s: State): (r: State)
    ensures r.loading && r.error == Null
    ensures r.items == s.items && r.current == s.current
  {
    s.(loading := true, error := Null)
  }

  /** `fetchProducts.fulfilled` and `.rejected`. */
  function Listed(s: State, t: Thunk<seq<Entry>>): (r: State)
    ensures !r.loading && r.current == s.current
    ensures t.Fulfilled? ==> r.items == t.payload && r.error == s.error
    ensures t.Rejected? ==> r.items == s.items && r.error == OrDefault(t.reason, ListFailed)
  {
    match t
    case Fulfilled(items) => s.(loading := false, items := items)
    case Rejected(p) => s.(loading := false, error := OrDefault(p, ListFailed))
  }

  /** Loading the catalogue: a lost session is 'unauthorized' with the
      catalogue kept, an error object (a 404 or 500 reply) lists nothing with
      no error, an array lists its elements, and a throw sets the default. */
  lemma {:induction false} ListedAfterFetch(s: State, f: Fetch)
    ensures Unauthorized(f) ==> Listed(Pending(s), FetchList(f)) == s.(loading := false, error := Str("unauthorized"))
    ensures f.Replied? && !Unauthorized(f) && f.body.JSingle? ==>
              Listed(Pending(s), FetchList(f)) == s.(items := [], loading := false, error := Null)
    ensures f.Replied? && !Unauthorized(f) && f.body.JArray? ==>
              Listed(Pending(s), FetchList(f)) == s.(items := f.body.elems, loading := false, error := Null)
    ensures f.NetworkError? || (!Unauthorized(f) && f.body.NotJson?) ==>
              Listed(Pending(s), FetchList(f)) == s.(loading := false, error := Str(ListFailed))
  {
  }

  /** `fetchProductById.fulfilled` and `.rejected`. */
  function Loaded(s: State, t: Thunk<Entry>): (r: State)
    ensures !r.loading && r.items == s.items
    ensures t.Fulfilled? ==> r.current == Some(t.payload) && r.error == s.error
    ensures t.Rejected? ==> r.current == s.current && r.error == OrDefault(t.reason, LoadFailed)
  {
    match t
    case Fulfilled(p) => s.(loading := false, current := Some(p))
    case Rejected(p) => s.(loading := false, error := OrDefault(p, LoadFailed))
  }

  /** Clearing is idempotent and forgets whatever a load left behind. */
  lemma {:induction false} ClearForgetsLoad(s: State, t: Thunk<Entry>)
    ensures ClearCurrent(ClearCurrent(s)) == ClearCurrent(s)
    ensures ClearCurrent(Loaded(Pending(s), t)) == ClearCurrent(s).(loading := false)
  {
  }
}

=== FILE: products.dfy ===
/**
 * The product controller. Create and update store an uploaded image's
 * public path; delete removes the product, and what happens to its orders
 * depends on the foreign key's policy: nothing, a 409 refusal, or a cascade.
 */
module ProductController {
  import opened Common
  import opened Records

  const ProductNotFound := "Product not found"
  const ProductDeleted := "Product deleted"
  const HasOrders := "Cannot delete this product because it has existing orders."

  /** The directory uploaded product images are served from. */
  const ImageDir := "/images/products/"

  /** The request body with `image_url` set from the uploaded file, if any. */
  function WithImage(body: Object, upload: Option<string>): (data: Object)
    ensures upload.Some? ==> data == body["image_url" := Str(ImageDir + upload.value)]
    ensures upload.None? ==> data == body
  {
    if upload.Some? then body["image_url" := Str(ImageDir + upload.value)] else body
  }

  function FromBody(data: Object): Product {
    Product(Get(data, "product_name"), Get(data, "price"), Get(data, "quantity"),
            Get(data, "category"), Get(data, "description"), Get(data, "image_url"))
  }

  function PatchProduct(p: Product, data: Object): Product {
    Product(Patch(data, "product_name", p.product_name), Patch(data, "price", p.price),
            Patch(data, "quantity", p.quantity), Patch(data, "category", p.category),
            Patch(data, "description", p.description), Patch(data, "image_url", p.image_url))
  }

  /** GET /api/products/:id. */
  function GetById(db: Db, id: int): (r: Step<Product>)
    ensures r.db == db
    ensures id !in db.products ==> r.res == Response(404, Failure(ProductNotFound))
    ensures id in db.products ==> r.res == Response(200, Json(db.products[id]))
  {
    if id !in db.products then Fail(404, ProductNotFound, db) else Ok(200, db.products[id], db)
  }

  /** POST /api/products, with an optional uploaded file name. */
  function Create(db: Db, body: Object, upload: Option<string>): (r: Step<Product>)
    ensures r.res.status == 201 && r.res.reply.Json?
    ensures Inserted(db.products, r.db.products, db.nextId, r.res.reply.body)
    ensures upload.Some? ==> r.res.reply.body == FromBody(body).(image_url := Str(ImageDir + upload.value))
    ensures upload.None? ==> r.res.reply.body == FromBody(body)
    ensures r.db == db.(products := r.db.products, nextId := r.db.nextId)
  {
    var p := FromBody(WithImage(body, upload));
    var db' := db.(products := db.products[db.nextId := p], nextId := db.nextId + 1);
    assert OrdersReferToProducts(db.orders, db.products) ==> OrdersReferToProducts(db'.orders, db'.products);
    Ok(201, p, db')
  }

  /** PUT or PATCH /api/products/:id: `image_url` is overwritten by an upload,
      otherwise only by the body. */
  function Update(db: Db, id: int, body: Object, upload: Option<string>): (r: Step<Product>)
    ensures id !in db.products ==> r == Fail(404, ProductNotFound, db)
    ensures id in db.products ==>
              && r.res.status == 200 && r.res.reply.Json?
              && var p := r.res.reply.body;
              && r.db == db.(products := db.products[id := p])
              && p.image_url == (if upload.Some? then Str(ImageDir + upload.value)
                                 else Patch(body, "image_url", db.products[id].image_url))
              && p.product_name == Patch(body, "product_name", db.products[id].product_name)
              && p.price == Patch(body, "price", db.products[id].price)
              && p.quantity == Patch(body, "quantity", db.products[id].quantity)
              && p.category == Patch(body, "category", db.products[id].category)
              && p.description == Patch(body, "description", db.products[id].description)
  {
    if id !in db.products then
      Fail(404, ProductNotFound, db)
    else
      var p := PatchProduct(db.products[id], WithImage(body, upload));
      var db' := db.(products := db.products[id := p]);
      assert OrdersReferToProducts(db.orders, db.products) ==> OrdersReferToProducts(db'.orders, db'.products);
      Ok(200, p, db')
  }

  /** An update is what a later lookup of that product finds, and no other
      product changes. */
  lemma {:induction false} UpdateThenGet(db: Db, id: int, body: Object, upload: Option<string>, other: int)
    ensures var r := Update(db, id, body, upload);
            GetById(r.db, id).res == (if id in db.products then r.res else Response(404, Failure(ProductNotFound)))
    ensures other != id ==> GetById(Update(db, id, body, upload).db, other).res == GetById(db, other).res
  {
  }

  /** The orders of a product. */
  predicate OrderOf(o: Order, id: int) {
    RefersTo(o.product_id, id)
  }

  /** DELETE /api/products/:id. */
  function Delete(db: Db, id: int): (r: Step<string>)
    ensures id !in db.products ==> r == Fail(404, ProductNotFound, db)
    ensures id in db.products && db.policy == Restrict && (exists k :: k in db.orders && OrderOf(db.orders[k], id)) ==>
              r == Fail(409, HasOrders, db)
    ensures r.res.status == 200 ==>
              && r.res.reply == Json(ProductDeleted)
              && r.db.products == db.products - {id}
              && (forall k :: k in r.db.orders ==> k in db.orders && r.db.orders[k] == db.orders[k])
              && r.db == db.(products := r.db.products, orders := r.db.orders)
    ensures id in db.products && db.policy != Restrict ==> r.res.status == 200
    ensures id in db.products && db.policy == Restrict && (forall k :: k in db.orders ==> !OrderOf(db.orders[k], id)) ==>
              r.res.status == 200 && r.db.orders == db.orders
    ensures r.res.status == 200 && db.policy == Unconstrained ==> r.db.orders == db.orders
    // a cascade removes exactly the product's orders
    ensures r.res.status == 200 && db.policy == Cascade ==>
              forall k :: k in r.db.orders <==> k in db.orders && !OrderOf(db.orders[k], id)
  {
    if id !in db.products then
      Fail(404, ProductNotFound, db)
    else
      match db.policy
      case Unconstrained =>
        Ok(200, ProductDeleted, db.(products := db.products - {id}))
      case Restrict =>
        if exists k :: k in db.orders && OrderOf(db.orders[k], id) then
          Fail(409, HasOrders, db)
        else
          Ok(200, ProductDeleted, db.(products := db.products - {id}))
      case Cascade =>
        Ok(200, ProductDeleted, db.(products := db.products - {id},
                                    orders := DestroyWhere(db.orders, (o: Order) => OrderOf(o, id))))
  }

  /** A created product is found under the key it was given, and deleting it
      restores the database bar the advanced counter, under every policy: no
      order can refer to a key the counter had not yet issued while the
      constraint exists, and without it no order is touched. */
  lemma {:induction false} CreateThenDelete(db: Db, body: Object, upload: Option<string>)
    ensures GetById(Create(db, body, upload).db, db.nextId).res == Response(200, Create(db, body, upload).res.reply)
    ensures Delete(Create(db, body, upload).db, db.nextId) == Ok(200, ProductDeleted, db.(nextId := db.nextId + 1))
  {
    var created := Create(db, body, upload);
    var after := created.db;
    assert after.products == db.products[db.nextId := created.res.reply.body];
    assert after.products - {db.nextId} == db.products;
    if db.policy != Unconstrained {
      forall k | k in db.orders
        ensures !OrderOf(db.orders[k], db.nextId)
      {
        assert ProductRef(db.products, db.orders[k].product_id);
      }
      assert DestroyWhere(db.orders, (o: Order) => OrderOf(o, db.nextId)) == db.orders;
    }
  }
}

=== FILE: records.dfy ===
/**
 * The persistent state of the storefront: six keyed tables shaped by the
 * ORM models (register, login, customer, address, product, customer_order),
 * one auto-increment counter from which every new primary key is drawn, and
 * the delete policy of the order-to-product foreign key, which the two
 * cascade migrations switch.
 *
 * Columns are untyped JSON scalars; passwords are either a bcrypt hash the
 * server produced or a value written verbatim.
 */
module Records {
  import opened Common

  /** A bcrypt digest kept abstract: `salt` stands for bcrypt's random salt
      and `secret` for what the digest commits to. */
  datatype Hash = Bcrypt(salt: nat, secret: string)

  /** `bcrypt.compare(pw, h)`. */
  predicate Verifies(pw: string, h: Hash) {
    h.secret == pw
  }

  /** A password column: a digest the server computed, or a value an update
      wrote verbatim. */
  datatype Secret = Plain(v: Value) | Hashed(h: Hash)

  datatype Register = Register(
    username: Value, password: Secret, email: Value, first_name: Value,
    last_name: Value, phone: Value, age: Value, birth_date: Value, role: Value)

  datatype Login = Login(reg_id: Value, username: Value, password: Secret)

  datatype Customer = Customer(
    reg_id: Value, email: Value, first_name: Value, last_name: Value,
    phone: Value, age: Value, birth_date: Value)

  datatype Address = Address(
    customer_id: Value, city: Value, postal_code: Value, street_address: Value)

  datatype Product = Product(
    product_name: Value, price: Value, quantity: Value, category: Value,
    description: Value, image_url: Value)

  datatype Order = Order(
    customer_id: Value, product_id: Value, order_date: Value, total_amount: Value)

  /** The foreign key `customer_order.product_id -> product.product_id`:
      absent, `ON DELETE` restricting, or `ON DELETE CASCADE`. */
  datatype FkPolicy = Unconstrained | Restrict | Cascade

  datatype Store = Store(
    registers: map<int, Register>,
    logins: map<int, Login>,
    customers: map<int, Customer>,
    addresses: map<int, Address>,
    products: map<int, Product>,
    orders: map<int, Order>,
    nextId: int,
    policy: FkPolicy)

  predicate KeysBelow<T>(t: map<int, T>, n: int) {
    forall k :: k in t ==> k < n
  }

  /** A `product_id` the foreign key accepts: NULL or an existing product. */
  predicate ProductRef(products: map<int, Product>, v: Value) {
    v == Null || (v.Num? && v.n in products)
  }

  predicate OrdersReferToProducts(orders: map<int, Order>, products: map<int, Product>) {
    forall k :: k in orders ==> ProductRef(products, orders[k].product_id)
  }

  /** What the database guarantees: the counter is ahead of every key, and
      while the foreign key exists every order refers to a product. */
  predicate Valid(s: Store) {
    && KeysBelow(s.registers, s.nextId)
    && KeysBelow(s.logins, s.nextId)
    && KeysBelow(s.customers, s.nextId)
    && KeysBelow(s.addresses, s.nextId)
    && KeysBelow(s.products, s.nextId)
    && KeysBelow(s.orders, s.nextId)
    && (s.policy != Unconstrained ==> OrdersReferToProducts(s.orders, s.products))
  }

  type Db = s: Store | Valid(s)
    witness Store(map[], map[], map[], map[], map[], map[], 1, Unconstrained)

  /** The JSON body of a response: a row, a list of rows, or a message. */
  datatype Reply<+T> = Json(body: T) | Failure(error: string)

  datatype Response<+T> = Response(status: int, reply: Reply<T>)

  /** One request handled: the response and the store afterwards. */
  datatype Step<+T> = Step(res: Response<T>, db: Db)

  function Fail<T>(status: int, error: string, db: Db): Step<T> {
    Step(Response(status, Failure(error)), db)
  }

  function Ok<T>(status: int, body: T, db: Db): Step<T> {
    Step(Response(status, Json(body)), db)
  }

  /** A non-empty set has a member. */
  lemma HasMember(keys: set<int>)
    requires keys != {}
    ensures exists x :: x in keys
  {
    if forall x :: x !in keys {
      assert false;
    }
  }

  /** Every finite non-empty set of keys has a least element. */
  lemma {:induction false} LeastExists(keys: set<int>)
    requires keys != {}
    ensures exists m :: m in keys && forall k :: k in keys ==> m <= k
  {
    HasMember(keys);
    var x :| x in keys;
    var rest := keys - {x};
    if rest == {} {
      forall k | k in keys ensures x <= k {
        assert k !in rest;
      }
    } else {
      LeastExists(rest);
      var m :| m in rest && forall k :: k in rest ==> m <= k;
      var bottom := if m <= x then m else x;
      forall k | k in keys ensures bottom <= k {
        if k != x {
          assert k in rest;
        }
      }
    }
  }

  /** Every finite non-empty set of keys has a greatest element. */
  lemma {:induction false} GreatestExists(keys: set<int>)
    requires keys != {}
    ensures exists m :: m in keys && forall k :: k in keys ==> k <= m
  {
    HasMember(keys);
    var x :| x in keys;
    var rest := keys - {x};
    if rest == {} {
      forall k | k in keys ensures k <= x {
        assert k !in rest;
      }
    } else {
      GreatestExists(rest);
      var m :| m in rest && forall k :: k in rest ==> k <= m;
      var top := if x <= m then m else x;
      forall k | k in keys ensures k <= top {
        if k != x {
          assert k in rest;
        }
      }
    }
  }

  function Least(keys: set<int>): (m: int)
    requires keys != {}
    ensures m in keys && forall k :: k in keys ==> m <= k
  {
    LeastExists(keys);
    var m :| m in keys && forall k :: k in keys ==> m <= k;
    m
  }

  function Greatest(keys: set<int>): (m: int)
    requires keys != {}
    ensures m in keys && forall k :: k in keys ==> k <= m
  {
    GreatestExists(keys);
    var m :| m in keys && forall k :: k in keys ==> k <= m;
    m
  }

  /** The keys of the rows satisfying a WHERE condition. */
  function Where<T>(t: map<int, T>, p: T -> bool): (ks: set<int>)
    ensures forall k :: k in ks <==> k in t && p(t[k])
  {
    set k | k in t && p(t[k])
  }

  /** `findOne({ where })` without an ORDER BY: the database returns some
      matching row; the model fixes it as the one with the least key. */
  function FindOne<T>(t: map<int, T>, p: T -> bool): (r: Option<int>)
    ensures r.None? <==> forall k :: k in t ==> !p(t[k])
    ensures r.Some? ==> r.value in t && p(t[r.value])
    ensures r.Some? ==> forall k :: k in t && p(t[k]) ==> r.value <= k
  {
    var ks := Where(t, p);
    if ks == {} then None else Some(Least(ks))
  }

  /** `destroy({ where })`: drop exactly the rows satisfying the condition. */
  function DestroyWhere<T>(t: map<int, T>, p: T -> bool): (t': map<int, T>)
    ensures forall k :: k in t' <==> k in t && !p(t[k])
    ensures forall k :: k in t' ==> t'[k] == t[k]
  {
    map k | k in t && !p(t[k]) :: t[k]
  }

  /** Destroying by a condition the newly inserted row meets undoes the insert. */
  lemma DestroyUndoesInsert<T>(t: map<int, T>, key: int, row: T, p: T -> bool)
    requires key !in t && p(row)
    ensures DestroyWhere(t[key := row], p) == DestroyWhere(t, p)
  {
    var a := DestroyWhere(t[key := row], p);
    var b := DestroyWhere(t, p);
    assert forall k :: k in a <==> k in b;
  }

  /** A foreign-key column that holds the key `id`. */
  predicate RefersTo(v: Value, id: int) {
    v == Num(id)
  }

  /** `after` is `before` with exactly one new row, under a key not used before. */
  predicate Inserted<T(==)>(before: map<int, T>, after: map<int, T>, key: int, row: T) {
    key !in before && after == before[key := row]
  }

  /** What bcrypt's `hash` throws when the password is `null` or missing,
      and when it is present but not a string. The wording is bcrypt's, not
      the application's. */
  const HashMissing := "data and salt arguments required"
  const HashNotString := "data must be a string or Buffer and salt must either be a salt string or a number of rounds"

  /** What bcrypt's `compare` throws when the stored digest is `null`, and
      when the password or the digest is not a string. */
  const CompareMissing := "data and hash arguments required"
  const CompareNotString := "data must be a string or Buffer and hash must be strings"

  /** The text a password column holds, if it holds a string at all: a
      digest always does. */
  predicate IsText(s: Secret) {
    s.Hashed? || s.v.Str?
  }
}

=== FILE: routes.dfy ===
/**
 * The API's route tables and Express's first-match dispatch. A request path
 * is the list of segments after the resource's mount point (`/api/orders`
 * and so on); each table lists its routes in registration order. The
 * routers are built with Express's defaults: a literal segment matches in
 * either letter case, and a trailing slash is ignored, so `/my/` arrives
 * here as the one segment `my`, as `/my` does.
 */
module Routes {
  import opened Common

  datatype Verb = Get | Post | Put | Patch | Delete

  /** The middleware in front of a handler: none, `auth` (any valid session
      token) or `admin` (an administrator's token). */
  datatype Guard = Open | Auth | Admin

  /** `/`, a literal segment such as `/my`, or a parameter such as `/:id`. */
  datatype Pattern = Root | Lit(segment: string) | Param

  datatype Handler = GetAll | GetById | GetMyOrders | Create | Update | Remove | Authenticate

  datatype Route = Route(verb: Verb, pattern: Pattern, guard: Guard, handler: Handler)

  datatype Resource = Products | Customers | Orders | Logins | Addresses

  /** The resource mounted at a path prefix; `/api/register` and `/api/ai`
      route to modules this model does not include. */
  function Mount(prefix: string): (r: Option<Resource>)
    ensures r == Some(Customers) <==> prefix == "/api/customers"
    ensures r == Some(Products) <==> prefix == "/api/products"
    ensures r == Some(Orders) <==> prefix == "/api/orders"
    ensures r == Some(Logins) <==> prefix == "/api/login"
    ensures r == Some(Addresses) <==> prefix == "/api/addresses"
    ensures r.None? <==> prefix !in {"/api/customers", "/api/products", "/api/orders", "/api/login", "/api/addresses"}
  {
    if prefix == "/api/customers" then Some(Customers)
    else if prefix == "/api/products" then Some(Products)
    else if prefix == "/api/orders" then Some(Orders)
    else if prefix == "/api/login" then Some(Logins)
    else if prefix == "/api/addresses" then Some(Addresses)
    else None
  }

  /** The routes of one resource, in the order they are registered. */
  function Table(r: Resource): (t: seq<Route>)
    // no verb and pattern is registered twice
    ensures forall i, j :: 0 <= i < j < |t| ==> (t[i].verb, t[i].pattern) != (t[j].verb, t[j].pattern)
  {
    match r
    case Products =>
      [Route(Get, Root, Auth, GetAll), Route(Get, Param, Auth, GetById),
       Route(Post, Root, Admin, Create), Route(Put, Param, Admin, Update),
       Route(Patch, Param, Admin, Update), Route(Delete, Param, Admin, Remove)]
    case Customers =>
      [Route(Get, Root, Admin, GetAll), Route(Get, Param, Admin, GetById),
       Route(Post, Root, Admin, Create), Route(Put, Param, Admin, Update),
       Route(Patch, Param, Admin, Update), Route(Delete, Param, Admin, Remove)]
    case Orders =>
      [Route(Get, Root, Auth, GetAll), Route(Get, Lit("my"), Auth, GetMyOrders),
       Route(Get, Param, Auth, GetById), Route(Post, Root, Auth, Create),
       Route(Put, Param, Auth, Update), Route(Patch, Param, Auth, Update),
       Route(Delete, Param, Auth, Remove)]
    case Logins =>
      [Route(Post, Lit("authenticate"), Open, Authenticate), Route(Get, Root, Admin, GetAll),
       Route(Patch, Param, Admin, Update), Route(Delete, Param, Admin, Remove)]
    case Addresses =>
      [Route(Get, Root, Auth, GetAll), Route(Get, Param, Auth, GetById),
       Route(Post, Root, Auth, Create), Route(Put, Param, Auth, Update),
       Route(Patch, Param, Auth, Update), Route(Delete, Param, Auth, Remove)]
  }

  /** Whether a pattern accepts a path: a literal (always written in lower
      case) takes the one segment that lower-cases to it, a parameter one
      non-empty segment. */
  predicate Accepts(p: Pattern, path: seq<string>) {
    match p
    case Root => path == []
    case Lit(s) => |path| == 1 && LowerAll(path[0]) == s
    case Param => |path| == 1 && path[0] != ""
  }

  predicate Serves(route: Route, verb: Verb, path: seq<string>) {
    route.verb == verb && Accepts(route.pattern, path)
  }

  /** The first registered route that serves the request, if any. */
  function Dispatch(table: seq<Route>, verb: Verb, path: seq<string>): (r: Option<nat>)
    ensures r.None? <==> forall i :: 0 <= i < |table| ==> !Serves(table[i], verb, path)
    ensures r.Some? ==> r.value < |table| && Serves(table[r.value], verb, path)
    ensures r.Some? ==> forall j :: 0 <= j < r.value ==> !Serves(table[j], verb, path)
  {
    if table == [] then None
    else if Serves(table[0], verb, path) then Some(0)
    else
      match Dispatch(table[1..], verb, path)
      case None => None
      case Some(i) => Some(i + 1)
  }

  /** The route a request to a resource reaches. */
  function Resolve(res: Resource, verb: Verb, path: seq<string>): (r: Option<Route>)
    ensures r.Some? ==> r.value in Table(res) && Serves(r.value, verb, path)
    ensures r.None? <==> forall i :: 0 <= i < |Table(res)| ==> !Serves(Table(res)[i], verb, path)
  {
    match Dispatch(Table(res), verb, path)
    case None => None
    case Some(i) => Some(Table(res)[i])
  }

  /** The literal `my` is its own lower case. */
  lemma MyLiteral() ensures LowerAll("my") == "my" {}

  /** `/api/orders/my` is registered before `/api/orders/:id`, so `my`, in
      any letter case, reaches the requester's own list and never the lookup
      by id; any other single segment reaches the lookup. */
  lemma {:induction false} MyOrdersBeforeLookup(id: string)
    requires id != ""
    ensures Resolve(Orders, Get, ["my"]) == Some(Route(Get, Lit("my"), Auth, GetMyOrders))
    ensures LowerAll(id) == "my" ==> Resolve(Orders, Get, [id]) == Some(Route(Get, Lit("my"), Auth, GetMyOrders))
    ensures LowerAll(id) != "my" ==> Resolve(Orders, Get, [id]) == Some(Route(Get, Param, Auth, GetById))
  {
    var t := Table(Orders);
    MyLiteral();
    assert Serves(t[1], Get, ["my"]) && !Serves(t[0], Get, ["my"]);
    assert !Serves(t[0], Get, [id]);
    if LowerAll(id) == "my" {
      assert Serves(t[1], Get, [id]);
    } else {
      assert Serves(t[2], Get, [id]);
      assert !Serves(t[1], Get, [id]);
    }
  }

  /** POST `/api/login/authenticate` reaches the sign-in handler in any
      letter case, and no other single segment reaches anything. */
  lemma {:induction false} AuthenticateInAnyCase(segment: string)
    ensures Resolve(Logins, Post, [segment]).Some? <==> LowerAll(segment) == "authenticate"
    ensures LowerAll(segment) == "authenticate" ==>
              Resolve(Logins, Post, [segment]) == Some(Route(Post, Lit("authenticate"), Open, Authenticate))
  {
    var t := Table(Logins);
    if LowerAll(segment) == "authenticate" {
      assert Serves(t[0], Post, [segment]);
    } else {
      assert forall i :: 0 <= i < |t| ==> !Serves(t[i], Post, [segment]);
    }
  }

  /** PUT and PATCH on an id reach the same handler behind the same guard,
      wherever PUT is registered at all. */
  lemma {:induction false} PutIsPatch(res: Resource, id: string)
    requires id != ""
    requires Resolve(res, Put, [id]).Some?
    ensures Resolve(res, Patch, [id]).Some?
    ensures Resolve(res, Put, [id]).value.handler == Resolve(res, Patch, [id]).value.handler == Update
    ensures Resolve(res, Put, [id]).value.guard == Resolve(res, Patch, [id]).value.guard
  {
    var t := Table(res);
    match res
    case Products =>
      assert Serves(t[3], Put, [id]) && Serves(t[4], Patch, [id]);
    case Customers =>
      assert Serves(t[3], Put, [id]) && Serves(t[4], Patch, [id]);
    case Orders =>
      assert Serves(t[4], Put, [id]) && Serves(t[5], Patch, [id]);
    case Addresses =>
      assert Serves(t[3], Put, [id]) && Serves(t[4], Patch, [id]);
    case Logins =>
      assert false;
  }

  /** The login resource cannot be created through the API, nor replaced with PUT. */
  lemma LoginsHaveNoCreate(id: string)
    ensures Resolve(Logins, Post, []).None?
    ensures Resolve(Logins, Put, [id]).None?
  {
  }

  /** The guard each resource's routes carry: authentication is open only
      to itself; product reads need a session; product writes and every
      customer and login route need an administrator; orders and addresses
      need only a session. */
  function RequiredGuard(res: Resource, route: Route): (g: Guard)
    ensures g == Open <==> res == Logins && route.handler == Authenticate
    ensures res == Customers || (res == Logins && route.handler != Authenticate) ==> g == Admin
    ensures res in {Orders, Addresses} ==> g == Auth
    ensures res == Products ==> (g == Auth <==> route.verb == Get) && g != Open
  {
    match res
    case Products => if route.verb == Get then Auth else Admin
    case Customers => Admin
    case Logins => if route.handler == Authenticate then Open else Admin
    case Orders => Auth
    case Addresses => Auth
  }

  /** Every registered route carries the guard its resource requires. */
  lemma {:induction false} GuardsAsRequired(res: Resource, verb: Verb, path: seq<string>)
    requires Resolve(res, verb, path).Some?
    ensures Resolve(res, verb, path).value.guard == RequiredGuard(res, Resolve(res, verb, path).value)
    ensures Resolve(res, verb, path).value.handler == Authenticate ==> res == Logins
  {
    var route := Resolve(res, verb, path).value;
    var t := Table(res);
    assert exists i :: 0 <= i < |t| && t[i] == route;
    var i :| 0 <= i < |t| && t[i] == route;
    assert t[i].guard == RequiredGuard(res, t[i]) && (t[i].handler == Authenticate ==> res == Logins) by {
      match res
      case Products =>
      case Customers =>
      case Orders =>
      case Logins =>
      case Addresses =>
    }
  }

  /** Only the authentication route is reachable without a session token. */
  lemma {:induction false} OnlyAuthenticationIsOpen(res: Resource, verb: Verb, path: seq<string>)
    requires Resolve(res, verb, path).Some?
    ensures Resolve(res, verb, path).value.guard == Open <==> Resolve(res, verb, path).value.handler == Authenticate
  {
    GuardsAsRequired(res, verb, path);
  }
}

=== FILE: session_slices.dfy ===
/**
 * The client's session credentials, mirrored into browser storage so that
 * a reload finds them again.
 */
module AuthSlice {
  import opened Common
  import opened Client

  datatype State = State(token: Value, username: Value, role: Value)

  const LoggedOut := State(Null, Null, Null)

  /** The value a storage key holds when the page loads. */
  function Stored(st: Storage, k: string): (v: Value)
    ensures k in st ==> v == Str(st[k])
    ensures k !in st ==> v == Null
  {
    if k in st then Str(st[k]) else Null
  }

  /** The initial state, read from storage. */
  function Load(st: Storage): (s: State)
    ensures s.token == Stored(st, "token") && s.username == Stored(st, "username") && s.role == Stored(st, "role")
  {
    State(Stored(st, "token"), Stored(st, "username"), Stored(st, "role"))
  }

  /** `setCredentials(payload)`: the three fields in state and in storage. */
  function SetCredentials(st: Storage, payload: Object): (r: (State, Storage))
    ensures r.0 == State(Get(payload, "token"), Get(payload, "username"), Get(payload, "role"))
    ensures forall k :: k in SessionKeys ==> k in r.1 && r.1[k] == PropText(payload, k)
    ensures forall k :: k !in SessionKeys ==> (k in r.1 <==> k in st) && (k in st ==> r.1[k] == st[k])
  {
    var token := Get(payload, "token");
    var username := Get(payload, "username");
    var role := Get(payload, "role");
    (State(token, username, role),
     SetItem(SetItem(SetItem(st, "token", PropText(payload, "token")), "username", PropText(payload, "username")),
             "role", PropText(payload, "role")))
  }

  /** `logout`: the three fields and the three keys are gone. */
  function Logout(st: Storage): (r: (State, Storage))
    ensures r.0 == LoggedOut
    ensures forall k :: k in r.1 <==> k in st && k !in SessionKeys
    ensures forall k :: k in r.1 ==> r.1[k] == st[k]
  {
    (LoggedOut, RemoveKeys(st, SessionKeys))
  }

  /** Credentials given as strings survive a reload: reading storage back
      gives the state `setCredentials` produced. */
  lemma {:induction false} ReloadKeepsCredentials(st: Storage, payload: Object)
    requires Get(payload, "token").Str? && Get(payload, "username").Str? && Get(payload, "role").Str?
    ensures Load(SetCredentials(st, payload).1) == SetCredentials(st, payload).0
  {
    var r := SetCredentials(st, payload);
    assert "token" in SessionKeys && "username" in SessionKeys && "role" in SessionKeys;
  }

  /** Logging out twice is logging out once, and a reload stays logged out. */
  lemma {:induction false} LogoutIdempotent(st: Storage)
    ensures Logout(Logout(st).1) == Logout(st)
    ensures Load(Logout(st).1) == LoggedOut
  {
    var once := Logout(st).1;
    assert RemoveKeys(once, SessionKeys) == once;
    assert "token" !in once && "username" !in once && "role" !in once;
  }
}

/**
 * The client's notification banner: a message and its kind, set by
 * `notify` and emptied again by `clearNotification`.
 */
module NotificationSlice {
  import opened Common
  import opened Client

  datatype State = State(message: Value, kind: Value)

  const Cleared := State(Null, Null)

  datatype Action = Notify(payload: Object) | Clear

  /** The two reducers. */
  function Apply(s: State, a: Action): (r: State)
    ensures a.Notify? ==> r.message == Get(a.payload, "message")
    ensures a.Notify? ==> r.kind == OrDefault(Get(a.payload, "type"), "success") && Truthy(r.kind)
    ensures a.Clear? ==> r == Cleared
  {
    match a
    case Notify(p) => State(Get(p, "message"), OrDefault(Get(p, "type"), "success"))
    case Clear => Cleared
  }

  /** The state after dispatching `actions` in order. */
  function Run(s: State, actions: seq<Action>): (r: State)
    ensures actions == [] ==> r == s
    ensures actions != [] ==> r == Apply(Run(s, actions[..|actions| - 1]), actions[|actions| - 1])
    decreases |actions|
  {
    if actions == [] then s else Run(Apply(s, actions[0]), actions[1..])
  }

  /** `showNotification(message, type = 'success')`: a notify now and, once
      the timer fires, a clear. */
  function Show(message: Value, kind: Option<Value>): (actions: seq<Action>)
    ensures |actions| == 2 && actions[0].Notify? && actions[1] == Clear
    ensures Get(actions[0].payload, "message") == message
    ensures kind.None? ==> Get(actions[0].payload, "type") == Str("success")
    ensures kind.Some? ==> Get(actions[0].payload, "type") == kind.value
  {
    var t := if kind.Some? then kind.value else Str("success");
    [Notify(map["message" := message, "type" := t]), Clear]
  }

  /** A shown notification displays the message with kind 'success' unless a
      truthy kind is given, and ends cleared, whatever came before. */
  lemma {:induction false} ShowThenClear(s: State, message: Value, kind: Option<Value>)
    ensures Apply(s, Show(message, kind)[0]).message == message
    ensures Apply(s, Show(message, kind)[0]).kind ==
              if kind.Some? && Truthy(kind.value) then kind.value else Str("success")
    ensures Run(s, Show(message, kind)) == Cleared
  {
    var a := Show(message, kind);
    var first := Apply(s, a[0]);
    assert a[1..] == [Clear] && a[1..][1..] == [];
    assert Run(first, a[1..]) == Run(Apply(first, Clear), []);
  }

  /** Clearing is idempotent. */
  lemma ClearIdempotent(s: State)
    ensures Apply(Apply(s, Clear), Clear) == Apply(s, Clear)
  {
  }
}

/**
 * The client's colour scheme: dark unless storage says exactly 'false',
 * and persisted on every toggle.
 */
module ThemeSlice {
  import opened Common

  datatype State = State(darkMode: bool)

  /** The initial state, read from storage. */
  function Load(st: Storage): (s: State)
    ensures !s.darkMode <==> "darkMode" in st && st["darkMode"] == "false"
  {
    State(!("darkMode" in st && st["darkMode"] == "false"))
  }

  /** `String(b)`. */
  function BoolText(b: bool): (s: string)
    ensures s == "false" <==> !b
  {
    if b then "true" else "false"
  }

  /** `toggleDarkMode`: the flag flips and the new value is persisted. */
  function Toggle(s: State, st: Storage): (r: (State, Storage))
    ensures r.0.darkMode == !s.darkMode
    ensures "darkMode" in r.1 && r.1["darkMode"] == BoolText(r.0.darkMode)
    ensures forall k :: k != "darkMode" ==> (k in r.1 <==> k in st) && (k in st ==> r.1[k] == st[k])
  {
    var s' := State(!s.darkMode);
    (s', st["darkMode" := BoolText(s'.darkMode)])
  }

  /** Toggling twice restores the scheme, and after any toggle a reload
      finds the scheme that is shown. */
  lemma {:induction false} ToggleRoundTrip(s: State, st: Storage)
    ensures var once := Toggle(s, st);
            Toggle(once.0, once.1).0 == s
    ensures Load(Toggle(s, st).1) == Toggle(s, st).0
  {
  }
}

=== FILE: shop_pages.dfy ===
/**
 * The quantity stepper of the buy dialog, shared by the dashboard and the
 * product page: decrement, increment and typed input, clamped to stock.
 */
module Stepper {
  import opened Common

  /** The length of the run of decimal digits `s` starts with. */
  function DigitRun(s: string): (n: nat)
    ensures n <= |s|
    ensures forall i :: 0 <= i < n ==> IsDigit(s[i])
    ensures n < |s| ==> !IsDigit(s[n])
  {
    if s == [] || !IsDigit(s[0]) then 0 else 1 + DigitRun(s[1..])
  }

  /** The text after a leading sign, if any. */
  function Unsigned(s: string): string {
    if s != [] && s[0] in "+-" then s[1..] else s
  }

  /** `parseInt(s)` on what a number input holds: an optional sign, then the
      longest run of digits; no digits is NaN. */
  function ParseInt(s: string): (r: Option<int>)
    ensures r.Some? <==> DigitRun(Unsigned(s)) > 0
  {
    var negative := s != [] && s[0] == '-';
    var body := Unsigned(s);
    var n := DigitRun(body);
    if n == 0 then None
    else
      var v: int := DigitsValue(body[..n]);
      Some(if negative then -v else v)
  }

  /** `parseInt(String(n))` is `n`. */
  lemma {:induction false} ParseIntOfString(n: int)
    ensures ParseInt(IntToString(n)) == Some(n)
  {
    var s := IntToString(n);
    var digits := NatToString(if n < 0 then -n else n);
    assert DigitRun(digits) == |digits|;
    assert digits[..|digits|] == digits;
    DigitsOfNat(if n < 0 then -n else n);
    if n >= 0 {
      assert s[0] !in "+-" by {
        assert IsDigit(s[0]);
      }
    }
  }

  /** The "-" button: one less, never below 1. */
  function Dec(q: int): (r: int)
    ensures r >= 1
    ensures q > 1 ==> r == q - 1
    ensures q <= 1 ==> r == 1
  {
    if q - 1 > 1 then q - 1 else 1
  }

  /** The "+" button: one more, never above the stock. */
  function Inc(q: int, stock: int): (r: int)
    ensures r <= stock
    ensures q + 1 <= stock ==> r == q + 1
    ensures q + 1 > stock ==> r == stock
  {
    if stock < q + 1 then stock else q + 1
  }

  /** The number typed in: `parseInt(value) || 1`, then clamped to
      `[1, stock]`. */
  function Typed(input: string, stock: int): (r: int)
    ensures r <= stock
    ensures stock >= 1 ==> r >= 1
    ensures ParseInt(input).None? || ParseInt(input) == Some(0) ==> r == (if stock < 1 then stock else 1)
    // a parsed number is kept when in range and clamped to the nearer end otherwise
    ensures var p := ParseInt(input);
            p.Some? && p.value != 0 ==>
              && (1 <= p.value <= stock ==> r == p.value)
              && (p.value > stock ==> r == stock)
              && (p.value < 1 ==> r == (if stock < 1 then stock else 1))
  {
    var parsed := ParseInt(input);
    var v := if parsed.Some? && parsed.value != 0 then parsed.value else 1;
    var atLeastOne := if v < 1 then 1 else v;
    if stock < atLeastOne then stock else atLeastOne
  }

  /** With stock on hand every control keeps the quantity within
      `[1, stock]`, and typing an in-stock quantity selects exactly it. */
  lemma {:induction false} StaysInStock(q: int, stock: int, input: string, n: int)
    requires 1 <= q <= stock
    ensures 1 <= Dec(q) <= stock
    ensures 1 <= Inc(q, stock) <= stock
    ensures 1 <= Typed(input, stock) <= stock
    ensures 1 <= n <= stock ==> Typed(IntToString(n), stock) == n
  {
    ParseIntOfString(n);
  }

  /** The Buy button: disabled exactly when nothing is in stock. */
  predicate BuyDisabled(stock: int) {
    stock <= 0
  }

  /** An optional sign followed by one or more decimal digits and nothing
      else. */
  predicate IntegerText(s: string) {
    Unsigned(s) != [] && forall i :: 0 <= i < |Unsigned(s)| ==> IsDigit(Unsigned(s)[i])
  }

  /** `Number(v)` on the values the model evaluates: `null`, `false` and the
      empty string are 0, `true` is 1, a number is itself, and a string of an
      optional sign and decimal digits is its value. `None` is every other
      string, which the model does not evaluate. */
  function ToNumber(v: Value): (r: Option<int>)
    ensures v == Null || v == Str("") || v == Bool(false) ==> r == Some(0)
    ensures v == Bool(true) ==> r == Some(1)
    ensures v.Num? ==> r == Some(v.n)
    ensures v.Str? ==> (r.Some? <==> v.s == "" || IntegerText(v.s))
  {
    match v
    case Null => Some(0)
    case Bool(b) => Some(if b then 1 else 0)
    case Num(n) => Some(n)
    case Str(s) =>
      if s == "" then Some(0)
      else if IntegerText(s) then
        var v: int := DigitsValue(Unsigned(s));
        Some(if s[0] == '-' then -v else v)
      else None
  }

  /** A price the server sends as the text of an integer reads back as that
      integer, with or without a plus sign. */
  lemma {:induction false} NumberOfText(n: int)
    ensures ToNumber(Str(IntToString(n))) == Some(n)
    ensures n >= 0 ==> ToNumber(Str("+" + IntToString(n))) == Some(n)
  {
    var s := IntToString(n);
    DigitsOfNat(if n < 0 then -n else n);
    if n >= 0 {
      assert s[0] !in "+-" by {
        assert IsDigit(s[0]);
      }
      assert ("+" + s)[1..] == s;
    }
  }

  /** `Number(price) * qty` for a price whose `Number` is an integer. */
  function Total(price: Value, qty: int): (t: Value)
    ensures ToNumber(price).Some? ==> t == Num(ToNumber(price).value * qty)
  {
    var n := ToNumber(price);
    if n.Some? then Num(n.value * qty) else Null
  }

  /** The body `placeOrder` posts for a product and a quantity; the date is
      read from the clock, so it is a parameter here. */
  function OrderBody(product: Object, qty: int, today: string): (body: Object)
    ensures body.Keys == {"product_id", "order_date", "total_amount"}
    ensures body["product_id"] == Get(product, "product_id")
    ensures body["order_date"] == Str(today)
    ensures body["total_amount"] == Total(Get(product, "price"), qty)
  {
    map["product_id" := Get(product, "product_id"), "order_date" := Str(today),
        "total_amount" := Total(Get(product, "price"), qty)]
  }

  /** The fixed opening of a placed order's message. */
  const PlacedPrefix := "Order placed for "

  /** The message of a placed order: the fixed text, the quantity followed by
      "x ", and the product's name last. */
  function PlacedMessage(qty: int, product_name: string): (m: string)
    ensures |m| == |PlacedPrefix| + |IntToString(qty)| + 2 + |product_name|
    ensures m[..|PlacedPrefix|] == PlacedPrefix
    ensures m[|PlacedPrefix|..|m| - |product_name| - 2] == IntToString(qty)
    ensures m[|m| - |product_name| - 2..] == "x " + product_name
  {
    var count := IntToString(qty);
    var tail := "x " + product_name;
    var m := PlacedPrefix + count + tail;
    assert m[..|PlacedPrefix|] == PlacedPrefix;
    assert m[|PlacedPrefix|..|m| - |tail|] == count;
    assert m[|m| - |tail|..] == tail;
    m
  }
}

/**
 * The customer dashboard's buying and cancelling flows and the order count.
 */
module Dashboard {
  import opened Common
  import opened Client
  import Stepper
  import OrderSlice
  import NotificationSlice
  import Records
  import LoginController
  import OrderController

  /** The dashboard's local state: the product being bought, the quantity,
      the active tab, and the order awaiting cancellation. */
  datatype Page = Page(buying: Option<Object>, qty: int, tab: Option<string>, cancelling: Option<Object>)

  /** `handleBuy(product)`: the dialog opens at quantity 1. */
  function OpenBuy(p: Page, product: Object): (r: Page)
    ensures r.buying == Some(product) && r.qty == 1
    ensures r == p.(buying := r.buying, qty := r.qty)
  {
    p.(buying := Some(product), qty := 1)
  }

  /** The Buy button is enabled exactly when the quantity the dialog opens
      with is in stock, and then every stepper control keeps it there. */
  lemma {:induction false} OpenBuyInStock(p: Page, product: Object, stock: int, input: string)
    ensures !Stepper.BuyDisabled(stock) <==> 1 <= OpenBuy(p, product).qty <= stock
    ensures !Stepper.BuyDisabled(stock) ==>
              var q := OpenBuy(p, product).qty;
              && 1 <= Stepper.Dec(q) <= stock
              && 1 <= Stepper.Inc(q, stock) <= stock
              && 1 <= Stepper.Typed(input, stock) <= stock
  {
    if !Stepper.BuyDisabled(stock) {
      Stepper.StaysInStock(1, stock, input, 1);
    }
  }

  /** `confirmBuy` once `placeOrder` has settled: the notifications it shows
      and the page afterwards. */
  function ConfirmBuy(p: Page, t: Thunk<Entry>): (r: (Page, seq<NotificationSlice.Action>))
    ensures p.buying.None? ==> r == (p, [])
    ensures p.buying.Some? ==> r.0.buying.None? && r.0.qty == p.qty && r.0.cancelling == p.cancelling
    ensures p.buying.Some? && t.Fulfilled? ==>
              && r.0.tab == Some("orders")
              && r.1 == NotificationSlice.Show(Str(Stepper.PlacedMessage(p.qty, PropText(p.buying.value, "product_name"))), None)
    ensures p.buying.Some? && t.Rejected? ==>
              && r.0.tab == p.tab
              && r.1 == NotificationSlice.Show(OrDefault(t.reason, OrderSlice.PlaceFailed), Some(Str("error")))
  {
    match p.buying
    case None => (p, [])
    case Some(product) =>
      if t.Fulfilled? then
        (p.(buying := None, tab := Some("orders")),
         NotificationSlice.Show(Str(Stepper.PlacedMessage(p.qty, PropText(product, "product_name"))), None))
      else
        (p.(buying := None), NotificationSlice.Show(OrDefault(t.reason, OrderSlice.PlaceFailed), Some(Str("error"))))
  }

  /** `confirmCancelOrder` once `cancelOrder` has settled. */
  function ConfirmCancel(p: Page, t: Thunk<Value>): (r: (Page, seq<NotificationSlice.Action>))
    ensures p.cancelling.None? ==> r == (p, [])
    ensures p.cancelling.Some? ==> r.0 == p.(cancelling := None)
    ensures p.cancelling.Some? && t.Fulfilled? ==> r.1 == NotificationSlice.Show(Str("Order cancelled"), None)
    ensures p.cancelling.Some? && t.Rejected? ==> r.1 == NotificationSlice.Show(Str(OrderSlice.CancelFailed), Some(Str("error")))
  {
    match p.cancelling
    case None => (p, [])
    case Some(_) =>
      if t.Fulfilled? then (p.(cancelling := None), NotificationSlice.Show(Str("Order cancelled"), None))
      else (p.(cancelling := None), NotificationSlice.Show(Str(OrderSlice.CancelFailed), Some(Str("error"))))
  }

  /** The label next to the order count. */
  function CountLabel(n: int): (s: string)
    ensures s == "order" <==> n == 1
    ensures s != "order" ==> s == "orders"
  {
    if n == 1 then "order" else "orders"
  }

  /** A buy the server accepts appends the server's order to the list, shows
      the orders tab and a success banner naming the quantity. */
  lemma {:induction false} AcceptedBuy(p: Page, s: OrderSlice.State, order: Object, status: int)
    requires p.buying.Some? && IsOk(status)
    ensures var t := OrderSlice.PlaceOrder(Replied(status, JSingle(Row(order))));
            && OrderSlice.Placed(s, t).items == s.items + [Row(order)]
            && ConfirmBuy(p, t).0.tab == Some("orders")
            && NotificationSlice.Apply(NotificationSlice.Cleared, ConfirmBuy(p, t).1[0]).kind == Str("success")
  {
  }

  /** A cancel the server accepts takes the order off the list and shows a
      success banner; a refused one leaves the list alone and shows the
      error. Either way the dialog closes. */
  lemma {:induction false} CancelThroughDialog(p: Page, s: OrderSlice.State, status: int, b: Body)
    requires p.cancelling.Some? && !OrderSlice.HoldsNull(s.items)
    ensures var id := Get(p.cancelling.value, "order_id");
            var t := OrderSlice.CancelOrder(Replied(status, b), id);
            var r := ConfirmCancel(p, t);
            && r.0.cancelling.None?
            && (IsOk(status) ==>
                  && (forall e :: e in OrderSlice.Cancelled(s, t).items ==> !OrderSlice.HasId(e, id))
                  && (forall e :: !OrderSlice.HasId(e, id) ==>
                        multiset(OrderSlice.Cancelled(s, t).items)[e] == multiset(s.items)[e])
                  && NotificationSlice.Apply(NotificationSlice.Cleared, r.1[0]) ==
                       NotificationSlice.State(Str("Order cancelled"), Str("success")))
            && (!IsOk(status) ==>
                  && OrderSlice.Cancelled(s, t) == s
                  && NotificationSlice.Apply(NotificationSlice.Cleared, r.1[0]) ==
                       NotificationSlice.State(Str(OrderSlice.CancelFailed), Str("error")))
  {
    var id := Get(p.cancelling.value, "order_id");
    var items := OrderSlice.Cancelled(s, OrderSlice.CancelOrder(Replied(status, b), id)).items;
    if IsOk(status) {
      forall e | e in items
        ensures !OrderSlice.HasId(e, id)
      {
        var i :| 0 <= i < |items| && items[i] == e;
      }
    }
  }

  /** The order the server records for a dialog's request carries the
      product, today's date and price times quantity, and belongs to the
      requester whatever the page sent. */
  lemma {:induction false} RecordedOrder(db: Records.Db, user: LoginController.Claims, product: Object, qty: int, today: string)
    requires OrderController.Create(db, user, Stepper.OrderBody(product, qty, today)).res.status == 201
    ensures var o := OrderController.Create(db, user, Stepper.OrderBody(product, qty, today)).res.reply.body.order;
            && o.product_id == Get(product, "product_id")
            && o.order_date == Str(today)
            && o.total_amount == Stepper.Total(Get(product, "price"), qty)
            && o.customer_id == Num(OrderController.CustomerOf(db, user).value)
  {
  }

  /** A buy the server refuses leaves the list alone and shows the server's
      error, or the default message when it gave none. */
  lemma {:induction false} RefusedBuy(p: Page, s: OrderSlice.State, error: Object, status: int)
    requires p.buying.Some? && !IsOk(status)
    ensures var t := OrderSlice.PlaceOrder(Replied(status, JSingle(Row(error))));
            && OrderSlice.Placed(s, t) == s
            && ConfirmBuy(p, t).0.tab == p.tab
            && NotificationSlice.Apply(NotificationSlice.Cleared, ConfirmBuy(p, t).1[0]) ==
                 NotificationSlice.State(OrDefault(Get(error, "error"), OrderSlice.PlaceFailed), Str("error"))
  {
  }
}

/**
 * The product page: loading, the error view, the lost-session rule and the
 * buy flow.
 */
module ProductDetail {
  import opened Common
  import opened Client
  import Stepper
  import ProductSlice
  import OrderSlice
  import AuthSlice
  import NotificationSlice
  import App

  datatype Screen = Loading | Missing(text: Value) | Showing(product: Entry)

  /** `product` is truthy: there is a current product and it is not `null`,
      `false`, `0` or the empty string. */
  predicate Present(product: Option<Entry>) {
    product.Some? && EntryTruthy(product.value)
  }

  /** What the page renders for the product store's state. */
  function View(s: ProductSlice.State): (v: Screen)
    ensures s.loading ==> v == Loading
    ensures !s.loading && (Truthy(s.error) || !Present(s.current)) ==> v == Missing(OrDefault(s.error, ProductSlice.NotFound))
    ensures !s.loading && !Truthy(s.error) && Present(s.current) ==> v == Showing(s.current.value)
  {
    if s.loading then Loading
    else if Truthy(s.error) || !Present(s.current) then Missing(OrDefault(s.error, ProductSlice.NotFound))
    else Showing(s.current.value)
  }

  /** After the load settles: an 'unauthorized' rejection logs out and goes
      to the login page; anything else stays. */
  function AfterLoad(t: Thunk<Entry>, st: Storage): (r: (Storage, Option<string>))
    ensures t == Rejected(Str("unauthorized")) ==> r == (AuthSlice.Logout(st).1, Some("/login"))
    ensures t != Rejected(Str("unauthorized")) ==> r == (st, None)
  {
    if t == Rejected(Str("unauthorized")) then (AuthSlice.Logout(st).1, Some("/login")) else (st, None)
  }

  /** The buy dialog: open or not, and the quantity. */
  datatype Dialog = Dialog(open: bool, qty: int)

  /** The Buy button: the dialog opens at quantity 1. */
  function OpenBuy(d: Dialog): (r: Dialog)
    ensures r.open && r.qty == 1
  {
    Dialog(true, 1)
  }

  /** As on the dashboard: the Buy button is enabled exactly when the
      dialog's opening quantity is in stock, and the stepper keeps it there. */
  lemma {:induction false} OpenBuyInStock(d: Dialog, stock: int, input: string)
    ensures !Stepper.BuyDisabled(stock) <==> 1 <= OpenBuy(d).qty <= stock
    ensures !Stepper.BuyDisabled(stock) ==>
              var q := OpenBuy(d).qty;
              && 1 <= Stepper.Dec(q) <= stock
              && 1 <= Stepper.Inc(q, stock) <= stock
              && 1 <= Stepper.Typed(input, stock) <= stock
  {
    if !Stepper.BuyDisabled(stock) {
      Stepper.StaysInStock(1, stock, input, 1);
    }
  }

  /** `product.product_name` as the message renders it: only an object has
      the property; on any other truthy value it reads as `undefined`. */
  function ProductName(e: Entry): (name: string)
    ensures e.Row? ==> name == PropText(e.fields, "product_name")
    ensures !e.Row? ==> name == "undefined"
  {
    if e.Row? then PropText(e.fields, "product_name") else "undefined"
  }

  /** `confirmBuy` once `placeOrder` has settled: success also resets the
      quantity; failure only closes the dialog; without a product it does
      nothing. */
  function ConfirmBuy(d: Dialog, product: Option<Entry>, t: Thunk<Entry>): (r: (Dialog, seq<NotificationSlice.Action>))
    ensures !Present(product) ==> r == (d, [])
    ensures Present(product) && t.Fulfilled? ==>
              r == (Dialog(false, 1), NotificationSlice.Show(Str(Stepper.PlacedMessage(d.qty, ProductName(product.value))), None))
    ensures Present(product) && t.Rejected? ==>
              r == (Dialog(false, d.qty), NotificationSlice.Show(OrDefault(t.reason, OrderSlice.PlaceFailed), Some(Str("error"))))
  {
    if !Present(product) then (d, [])
    else if t.Fulfilled? then
      (Dialog(false, 1), NotificationSlice.Show(Str(Stepper.PlacedMessage(d.qty, ProductName(product.value))), None))
    else
      (Dialog(false, d.qty), NotificationSlice.Show(OrDefault(t.reason, OrderSlice.PlaceFailed), Some(Str("error"))))
  }

  /** Buying from the product page: an accepted order joins the list, the
      dialog closes and the quantity resets; a refused one closes the dialog
      with the quantity kept and shows the server's error or the default. */
  lemma {:induction false} BuyThroughDialog(d: Dialog, product: Entry, s: OrderSlice.State, status: int, b: Body)
    requires EntryTruthy(product) && b.JSingle? && !NullBody(b)
    ensures var t := OrderSlice.PlaceOrder(Replied(status, b));
            var r := ConfirmBuy(d, Some(product), t);
            && !r.0.open
            && (IsOk(status) ==>
                  && OrderSlice.Placed(s, t).items == s.items + [b.e]
                  && r.0.qty == 1
                  && NotificationSlice.Apply(NotificationSlice.Cleared, r.1[0]) ==
                       NotificationSlice.State(Str(Stepper.PlacedMessage(d.qty, ProductName(product))), Str("success")))
            && (!IsOk(status) ==>
                  && OrderSlice.Placed(s, t) == s
                  && r.0.qty == d.qty
                  && NotificationSlice.Apply(NotificationSlice.Cleared, r.1[0]) ==
                       NotificationSlice.State(OrDefault(Get(Fields(b), "error"), OrderSlice.PlaceFailed), Str("error")))
  {
  }

  /** A product that does not exist shows 'Product not found'. */
  lemma {:induction false} MissingProduct(s: ProductSlice.State, status: int, b: Body)
    requires !IsOk(status) && status != 401 && status != 403
    ensures View(ProductSlice.Loaded(ProductSlice.Pending(s), ProductSlice.FetchProductById(Replied(status, b))))
            == Missing(Str(ProductSlice.NotFound))
  {
  }

  /** A product that loads is shown, whatever error an earlier load left;
      a body that is `null`, `false`, `0` or `""` is not found. */
  lemma {:induction false} LoadedProduct(s: ProductSlice.State, status: int, product: Entry)
    requires IsOk(status)
    ensures var v := View(ProductSlice.Loaded(ProductSlice.Pending(s), ProductSlice.FetchProductById(Replied(status, JSingle(product)))));
            && (EntryTruthy(product) ==> v == Showing(product))
            && (!EntryTruthy(product) ==> v == Missing(Str(ProductSlice.NotFound)))
  {
  }

  /** A lost session while loading ends the session: storage loses the
      session keys and the protected pages redirect to the login page. */
  lemma {:induction false} LostSessionLogsOut(st: Storage, status: int, b: Body)
    requires status == 401 || status == 403
    ensures var r := AfterLoad(ProductSlice.FetchProductById(Replied(status, b)), st);
            && r.1 == Some("/login")
            && App.Route("/dashboard", r.0) == App.Redirect("/login")
            && AuthSlice.Load(r.0) == AuthSlice.LoggedOut
  {
    AuthSlice.LogoutIdempotent(st);
    assert "token" in SessionKeys;
  }
}

=== FILE: signup.dfy ===
/**
 * Self-service signup (POST /api/register): one request writes a
 * registration row and a login row that share one password digest, and
 * for the 'user' role also a customer profile and its address. Admin
 * accounts cannot be created this way. The four writes are one atomic step
 * here; the original issues them one by one without a transaction.
 */
module RegisterController {
  import opened Common
  import opened Records
  import LoginController

  const AdminForbidden := "Admin registration is not allowed"

  /** `req.body.role || 'user'`. */
  function RoleOf(body: Object): (role: Value)
    ensures "role" in body && Truthy(body["role"]) ==> role == body["role"]
    ensures !("role" in body && Truthy(body["role"])) ==> role == Str("user")
  {
    OrElse(if "role" in body then Some(body["role"]) else None, Str("user"))
  }

  /** The registration row: profile fields only for the 'user' role. */
  function NewRegister(body: Object, role: Value, h: Hash): Register {
    var user := role == Str("user");
    Register(
      Get(body, "username"), Hashed(h),
      if user then Get(body, "email") else Null,
      if user then Get(body, "first_name") else Null,
      if user then Get(body, "last_name") else Null,
      if user then Get(body, "phone") else Null,
      if user then Get(body, "age") else Null,
      if user then Get(body, "birth_date") else Null,
      role)
  }

  function NewCustomer(body: Object, regId: int): Customer {
    Customer(Num(regId), Get(body, "email"), Get(body, "first_name"), Get(body, "last_name"),
             Get(body, "phone"), Get(body, "age"), Get(body, "birth_date"))
  }

  function NewAddress(body: Object, customerId: int): Address {
    Address(Num(customerId), Get(body, "city"), Get(body, "postal_code"), Get(body, "street_address"))
  }

  /** The profile fields a registration row carries. */
  function Profile(r: Register): seq<Value> {
    [r.email, r.first_name, r.last_name, r.phone, r.age, r.birth_date]
  }

  /** The same fields of a customer row. */
  function CustomerProfile(c: Customer): seq<Value> {
    [c.email, c.first_name, c.last_name, c.phone, c.age, c.birth_date]
  }

  /** The profile fields as submitted. */
  function SubmittedProfile(body: Object): seq<Value> {
    [Get(body, "email"), Get(body, "first_name"), Get(body, "last_name"),
     Get(body, "phone"), Get(body, "age"), Get(body, "birth_date")]
  }

  /** POST /api/register, hashing the password with the given salt. Keys are
      drawn from the counter in write order: registration, login, customer,
      address. */
  function Create(db: Db, body: Object, salt: nat): (r: Step<Register>)
    ensures RoleOf(body) == Str("admin") ==> r == Fail(403, AdminForbidden, db)
    ensures r.res.status != 201 ==> r.db == db
    ensures r.res.status == 201 <==> RoleOf(body) != Str("admin") && Get(body, "password").Str?
    // bcrypt refuses a missing password and one that is not a string
    ensures RoleOf(body) != Str("admin") && !Get(body, "password").Str? ==>
              r == Fail(500, if Get(body, "password") == Null then HashMissing else HashNotString, db)
    ensures r.res.status == 201 ==>
              var regId := db.nextId;
              && r.res.reply.Json?
              && var reg := r.res.reply.body;
              && Inserted(db.registers, r.db.registers, regId, reg)
              && regId + 1 in r.db.logins
              && Inserted(db.logins, r.db.logins, regId + 1, r.db.logins[regId + 1])
              && reg.role == RoleOf(body)
              && reg.username == Get(body, "username")
              // one digest of the submitted password, in both rows, never the plaintext
              && reg.password == Hashed(Bcrypt(salt, body["password"].s))
              && r.db.logins[regId + 1].password == reg.password
              && r.db.logins[regId + 1].reg_id == Num(regId)
              && r.db.logins[regId + 1].username == reg.username
              && (reg.role != Str("user") ==> forall i :: 0 <= i < 6 ==> Profile(reg)[i] == Null)
              && r.db.products == db.products && r.db.orders == db.orders
    ensures r.res.status == 201 && RoleOf(body) == Str("user") ==>
              var regId := db.nextId;
              && regId in r.db.registers && regId + 2 in r.db.customers && regId + 3 in r.db.addresses
              && Inserted(db.customers, r.db.customers, regId + 2, r.db.customers[regId + 2])
              && Inserted(db.addresses, r.db.addresses, regId + 3, r.db.addresses[regId + 3])
              && r.db.customers[regId + 2].reg_id == Num(regId)
              && r.db.addresses[regId + 3].customer_id == Num(regId + 2)
              && Profile(r.db.registers[regId]) == SubmittedProfile(body)
              && CustomerProfile(r.db.customers[regId + 2]) == SubmittedProfile(body)
              && r.db.addresses[regId + 3].city == Get(body, "city")
              && r.db.addresses[regId + 3].postal_code == Get(body, "postal_code")
              && r.db.addresses[regId + 3].street_address == Get(body, "street_address")
    ensures r.res.status == 201 && RoleOf(body) != Str("user") ==>
              r.db.customers == db.customers && r.db.addresses == db.addresses
  {
    var role := RoleOf(body);
    if role == Str("admin") then
      Fail(403, AdminForbidden, db)
    else if !Get(body, "password").Str? then
      Fail(500, if Get(body, "password") == Null then HashMissing else HashNotString, db)
    else
      var h := Bcrypt(salt, body["password"].s);
      var regId := db.nextId;
      var reg := NewRegister(body, role, h);
      var login := Login(Num(regId), Get(body, "username"), Hashed(h));
      var withLogin := db.(registers := db.registers[regId := reg],
                           logins := db.logins[regId + 1 := login]);
      if role == Str("user") then
        var db' := withLogin.(customers := db.customers[regId + 2 := NewCustomer(body, regId)],
                              addresses := db.addresses[regId + 3 := NewAddress(body, regId + 2)],
                              nextId := regId + 4);
        Ok(201, reg, db')
      else
        Ok(201, reg, withLogin.(nextId := regId + 2))
  }

  /** A new user who signs up and then authenticates with the same username
      and password gets a token for the new registration with role 'user',
      provided no earlier login already uses that username. */
  lemma {:induction false} SignupThenAuthenticate(db: Db, body: Object, salt: nat, now: int)
    requires Truthy(Get(body, "username"))
    requires Get(body, "password").Str? && body["password"].s != ""
    requires RoleOf(body) == Str("user")
    requires LoginController.Account(db, body["username"]).None?
    ensures Create(db, body, salt).res.status == 201
    ensures
      var after := Create(db, body, salt).db;
      var creds := map["username" := body["username"], "password" := body["password"]];
      var r := LoginController.Authenticate(after, creds, now);
      && r.res.status == 200
      && r.res.reply.body.role == Str("user")
      && r.res.reply.body.token.reg_id == Num(db.nextId)
      && r.res.reply.body.token.username == body["username"]
  {
    var r := Create(db, body, salt);
    var after := r.db;
    var u := body["username"];
    var id := db.nextId + 1;
    assert after.logins[id].username == u;
    var acct := LoginController.Account(after, u);
    assert acct == Some(id) by {
      assert acct.Some?;
      var k := acct.value;
      if k != id {
        assert false;
      }
    }
    assert after.registers[db.nextId].role == Str("user");
  }
}

=== FILE: startup.dfy ===
/**
 * The clean-up the server runs once it is listening: customers whose first
 * name, last name and email are all blank are deleted, together with their
 * addresses.
 */
module StartupSweep {
  import opened Common
  import opened Records

  /** NULL or the empty string. */
  predicate Blank(v: Value) {
    v == Null || v == Str("")
  }

  predicate Stale(c: Customer) {
    Blank(c.first_name) && Blank(c.last_name) && Blank(c.email)
  }

  /** The keys of the stale customers. */
  function StaleIds(customers: map<int, Customer>): (ids: set<int>)
    ensures forall k :: k in ids <==> k in customers && Stale(customers[k])
  {
    Where(customers, Stale)
  }

  /** An address whose `customer_id` is one of `ids`. */
  predicate OwnedByAny(a: Address, ids: set<int>) {
    a.customer_id.Num? && a.customer_id.n in ids
  }

  /** The sweep, returning the store and how many customers it removed. */
  function Sweep(db: Db): (r: (nat, Db))
    ensures var ids := StaleIds(db.customers);
            && r.0 == |ids|
            // exactly the stale customers disappear
            && (forall k :: k in r.1.customers <==> k in db.customers && !Stale(db.customers[k]))
            // exactly their addresses disappear
            && (forall k :: k in r.1.addresses <==> k in db.addresses && !OwnedByAny(db.addresses[k], ids))
            // surviving rows are untouched
            && (forall k :: k in r.1.customers ==> r.1.customers[k] == db.customers[k])
            && (forall k :: k in r.1.addresses ==> r.1.addresses[k] == db.addresses[k])
            && r.1 == db.(customers := r.1.customers, addresses := r.1.addresses)
    ensures StaleIds(db.customers) == {} ==> r == (0, db)
  {
    var ids := StaleIds(db.customers);
    if |ids| > 0 then
      var db' := db.(addresses := DestroyWhere(db.addresses, (a: Address) => OwnedByAny(a, ids)),
                     customers := DestroyWhere(db.customers, Stale));
      (|ids|, db')
    else
      (0, db)
  }

  /** A second sweep finds nothing left to delete. */
  lemma {:induction false} SweepIdempotent(db: Db)
    ensures Sweep(Sweep(db).1) == (0, Sweep(db).1)
  {
    var after := Sweep(db).1;
    forall k | k in after.customers ensures !Stale(after.customers[k]) {
      assert after.customers[k] == db.customers[k];
    }
    assert StaleIds(after.customers) == {};
  }
}
